=== FILE: README.md ===
# Project index data service: a Dafny model

This project models how the OurUmbraco community site prepares package
("project") records for its search index, as implemented in
`ProjectNodeIndexDataService.cs`. It covers four things:

- **Popularity score.** `ProjectPopularityPoints.GetUpdateDateScore` and `Calculate` are modelled in module `Popularity`. The score uses C# 32-bit `int` arithmetic, written out explicitly.
- **Project to flat row.** `MapProjectToSimpleDataIndexItem`, and the per-project map lookups with defaults in `GetAllData`, are modelled in module `RecordTransformer`.
- **Document shaping.** `ProjectIndexer_DocumentWriting` and `AddNumericalVersionValue` are modelled in module `DocumentShaper`. Lucene documents are sequences of named fields that may repeat, and `RemoveField` removes only the first field with a given name.
- **Category backfill.** `ProjectIndexer_GatheringNodeData` is modelled in module `CategoryResolver`.

Supporting modules:

- `Text`: .NET white space, `Trim`, ASCII lower-casing standing for both `ToLower()` and `ToLowerInvariant()`, `Split`/`Join`, and decimal `int` text.
- `Timestamp`: `ToString("yyyy-MM-dd HH:mm:ss")`.
- `VersionCodec`: the three-part version, `ToString(3)` and the documented numeric encoding.
- `Indexing`: joins the row to the document-shaping step.
- `Wrappers`: `Option` and `Result`.

Helpers whose code is not part of this model are parameters of the operations that use them:

- `GetFromUmbracoString` (a `Cleaner`; `None` stands for `null`)
- `PackageRepositoryService.GetAllStrictSupportedPackageVersions` (a `StrictClassifier`)
- `StripHtml` (a `Stripper`)
- `System.Version.TryParse` (a `VersionParser`)

The clock is a parameter too: the days since the last update, or a function from update date to days.

## Model

All source paths are in `OurUmbraco/Our/Examine/ProjectNodeIndexDataService.cs`.

| member | source | states |
|---|---|---|
| Popularity.UpdateDateScore | OurUmbraco/Our/Examine/ProjectNodeIndexDataService.cs:95-106 | the recency score is always between 0 and 5; it is 5 when at most 30 days have passed and 0 after more than 700 days |
| Popularity.UpdateDateScoreMonotone | OurUmbraco/Our/Examine/ProjectNodeIndexDataService.cs:95-106 | the recency score never increases as the days since the update grow |
| Popularity.Accumulate | OurUmbraco/Our/Examine/ProjectNodeIndexDataService.cs:134-139 | the `pop += boost * value` loop with C# int wrap-around always yields the exact weighted sum of the list reduced to 32 bits |
| Popularity.Calculate | OurUmbraco/Our/Examine/ProjectNodeIndexDataService.cs:108-139 | the score is a 32-bit value equal to downloads + 100·votes + 100·recency + 500·(number of set signals) modulo 2^32, and equal to that sum whenever the sum fits in an int |
| Popularity.ScoreIncrements | OurUmbraco/Our/Examine/ProjectNodeIndexDataService.cs:112-128 | setting any one of the four yes/no signals adds exactly 500; one more download adds 1; one more vote adds 100 |
| Popularity.CalculateIncrements | OurUmbraco/Our/Examine/ProjectNodeIndexDataService.cs:112-139 | the computed score also rises by exactly 500 when one signal is set, provided both scores fit in an int |
| Popularity.CalculateExamples | OurUmbraco/Our/Examine/ProjectNodeIndexDataService.cs:95-139 | a stale empty project scores 0; a project updated 10 days ago with nothing else scores 500; a fresh project with all signals, 10 downloads and 3 votes scores 2810 |
| RecordTransformer.FirstScreenshot | OurUmbraco/Our/Examine/ProjectNodeIndexDataService.cs:176 | finds nothing exactly when no file is a screenshot; otherwise finds the file at the first screenshot position |
| RecordTransformer.SelectImage | OurUmbraco/Our/Examine/ProjectNodeIndexDataService.cs:169-179 | a non-blank default screenshot path wins; otherwise the path of the first file whose type is "screenshot"; otherwise "" |
| RecordTransformer.CountPackageFiles | OurUmbraco/Our/Examine/ProjectNodeIndexDataService.cs:210 | the count equals the number of positions holding a file of type "package" |
| RecordTransformer.CleanTokens | OurUmbraco/Our/Examine/ProjectNodeIndexDataService.cs:189-194 | every kept token is the cleaner's result for some input token; every token the cleaner accepts contributes its result; rejected (null) tokens contribute nothing |
| RecordTransformer.CleanTokensConcat | OurUmbraco/Our/Examine/ProjectNodeIndexDataService.cs:189-190 | cleaning works piecewise over concatenation, so it keeps the tokens' relative order |
| RecordTransformer.CleanTokensJoinable | OurUmbraco/Our/Examine/ProjectNodeIndexDataService.cs:189-194 | if the cleaner only yields non-empty, comma-free text, every cleaned token list can be comma-joined without loss |
| RecordTransformer.CleanVersionProperty | OurUmbraco/Our/Examine/ProjectNodeIndexDataService.cs:185-190 | each cleaned version comes from an accepted piece of the lower-cased, comma-trimmed, comma-split property, and every piece the cleaner accepts contributes its cleaned value; a missing property reads as "" |
| RecordTransformer.StrictVersions | OurUmbraco/Our/Examine/ProjectNodeIndexDataService.cs:222 | there is one text per strict file; each reads back as that file's minimum version; together they can be comma-joined |
| RecordTransformer.PointsOf | OurUmbraco/Our/Examine/ProjectNodeIndexDataService.cs:196-202 | the popularity inputs are the project's dates and flags; it has a forum exactly when some child is visible; it has a source link exactly when sourceUrl is present and not all white space; downloads and votes are the totals passed in |
| RecordTransformer.BoolText | OurUmbraco/Our/Examine/ProjectNodeIndexDataService.cs:213-214 | the text is "1" or "0", and "1" exactly when the flag is set |
| RecordTransformer.MapProjectToSimpleDataIndexItem | OurUmbraco/Our/Examine/ProjectNodeIndexDataService.cs:148-225 | node id and type; each copied field; the category lower-cased and trimmed; both dates formatted; popularity, karma, downloads and packageFiles read back as the computed score, votes, downloads and package-file count; image as selected; projectLive and approved are "1" exactly when the flag is set, else "0"; the three version fields are comma-joins of the cleaned and strict tokens |
| RecordTransformer.CategoryFolderNormalised | OurUmbraco/Our/Examine/ProjectNodeIndexDataService.cs:161 | the stored category has no upper-case ASCII letter and no white space at either end |
| RecordTransformer.VersionFieldsRoundTrip | OurUmbraco/Our/Examine/ProjectNodeIndexDataService.cs:185-222 | splitting each of the three version fields on ',' with empty pieces removed gives back exactly the tokens that were joined, in order |
| RecordTransformer.RowFor | OurUmbraco/Our/Examine/ProjectNodeIndexDataService.cs:243-250 | each statistic is the project's entry when its id is in the map, else the default: karma and downloads read back as the entry or 0; packageFiles, image and minimumVersionStrict come from the project's files or from no files; compatVersions is the comma join of the cleaned entry or ""; popularity reads back as the score of the looked-up totals at the project's elapsed days |
| RecordTransformer.GetAllData | OurUmbraco/Our/Examine/ProjectNodeIndexDataService.cs:239-251 | one row per project in feed order, each the row of that project with its statistics looked up (so every per-project fact above holds of it); karma and downloads read back as the looked-up totals, zero by default |
| DocumentShaper.RemoveField | OurUmbraco/Our/Examine/ProjectNodeIndexDataService.cs:302 | removes the first field with the name and no other; fields with other names are untouched; a missing name is a no-op |
| DocumentShaper.Tokens | OurUmbraco/Our/Examine/ProjectNodeIndexDataService.cs:314-319 | a field present in the row gives its comma-separated pieces with empty entries removed; an absent field gives none; the pieces are non-empty and comma-free |
| DocumentShaper.AddAll | OurUmbraco/Our/Examine/ProjectNodeIndexDataService.cs:321-324 | adding to the set keeps it duplicate-free; it holds exactly the old members and the new tokens; old members keep their places |
| DocumentShaper.CollectVersions | OurUmbraco/Our/Examine/ProjectNodeIndexDataService.cs:307-339 | the collected versions are duplicate-free; they are exactly the tokens of the three delimited fields |
| DocumentShaper.ParsedVersions | OurUmbraco/Our/Examine/ProjectNodeIndexDataService.cs:269-274 | there is one version per token that parses, duplicates kept; a single token gives its version or nothing; a version is present exactly when some token parses to it |
| DocumentShaper.ParsedVersionsConcat | OurUmbraco/Our/Examine/ProjectNodeIndexDataService.cs:269-274 | parsing works piecewise over concatenation, so the versions come in their tokens' order |
| DocumentShaper.NumericFieldsValues | OurUmbraco/Our/Examine/ProjectNodeIndexDataService.cs:269-283 | the numeric fields carry exactly the encodings of the tokens that parse |
| DocumentShaper.AddNumericalVersionValue | OurUmbraco/Our/Examine/ProjectNodeIndexDataService.cs:267-284 | the document keeps its prefix; it gains exactly one numeric, stored field per token that parses, all under the given name; their values are exactly the encodings of the parsable tokens |
| DocumentShaper.AddNumericalVersionValueOrder | OurUmbraco/Our/Examine/ProjectNodeIndexDataService.cs:269-283 | the k-th added field carries the encoding of the k-th parsed version, so the fields follow token order |
| DocumentShaper.ShapeBodyNamed | OurUmbraco/Our/Examine/ProjectNodeIndexDataService.cs:293-304 | with a body in the row, one raw copy is added under "__body" and the first "body" field is replaced by the stripped text; without one nothing changes |
| DocumentShaper.ShapeDelimitedNamed | OurUmbraco/Our/Examine/ProjectNodeIndexDataService.cs:314-332 | a present delimited field loses its first occurrence and gains one field per token in order; an absent one is left alone; other names are untouched |
| DocumentShaper.ShapeBody | OurUmbraco/Our/Examine/ProjectNodeIndexDataService.cs:293-305 | every field after the body step was already in the document or is named "body" or "__body" |
| DocumentShaper.ShapeDelimited | OurUmbraco/Our/Examine/ProjectNodeIndexDataService.cs:313-335 | every field after a delimited step was already in the document or carries that step's field name |
| DocumentShaper.DocumentWriting | OurUmbraco/Our/Examine/ProjectNodeIndexDataService.cs:291-341 | the event adds no field except under the names it shapes (body, __body, num_version and the three delimited fields); every other field of the result was in the document |
| DocumentShaper.DocumentWritingVersionField | OurUmbraco/Our/Examine/ProjectNodeIndexDataService.cs:307-333 | each present delimited field ends up as one stored field per non-empty comma-separated token, in order, duplicates kept (exactly the tokens when the engine built one such field); absent ones are untouched |
| DocumentShaper.DocumentWritingBody | OurUmbraco/Our/Examine/ProjectNodeIndexDataService.cs:293-304 | after the whole event, "__body" has one more raw copy and the first "body" is the stripped text |
| DocumentShaper.DocumentWritingNumericVersions | OurUmbraco/Our/Examine/ProjectNodeIndexDataService.cs:307-339 | the "num_version" fields added are numeric; there is one per distinct token, across all three delimited fields, that parses; together they carry exactly those tokens' encodings |
| DocumentShaper.DocumentWritingOtherFields | OurUmbraco/Our/Examine/ProjectNodeIndexDataService.cs:291-340 | fields the event does not shape keep their values and order |
| DocumentShaper.DocumentWritingNoOp | OurUmbraco/Our/Examine/ProjectNodeIndexDataService.cs:291-340 | a row with no body and no delimited version field leaves the document unchanged |
| VersionCodec.NumericalValue | OurUmbraco/Our/Examine/ProjectNodeIndexDataService.cs:261-265 | for components in 0..999, the encoding is below 10^9 and each component can be read back from its three-digit group |
| VersionCodec.DecodeEncode | OurUmbraco/Our/Examine/ProjectNodeIndexDataService.cs:261-265 | decoding the encoding of an in-range version gives the version back |
| VersionCodec.EncodeDecode | OurUmbraco/Our/Examine/ProjectNodeIndexDataService.cs:261-265 | every number below 10^9 is the encoding of the in-range version it decodes to |
| VersionCodec.EncodingInjective | OurUmbraco/Our/Examine/ProjectNodeIndexDataService.cs:255-265 | distinct in-range versions have distinct encodings |
| VersionCodec.EncodingOrderPreserving | OurUmbraco/Our/Examine/ProjectNodeIndexDataService.cs:255-265 | for in-range versions, one version comes before another exactly when its encoding is smaller, so numeric range queries follow version order |
| VersionCodec.EncodingExamples | OurUmbraco/Our/Examine/ProjectNodeIndexDataService.cs:261-265 | 7.5.0 encodes to 7005000, 4.11.0 to 4011000 and 0.0.1 to 1 |
| VersionCodec.OutOfRangeCollides | OurUmbraco/Our/Examine/ProjectNodeIndexDataService.cs:261-265 | outside 0..999 the formula is not injective: 0.1000.0 and 1.0.0 both encode to 1000000 |
| VersionCodec.ToString3 | OurUmbraco/Our/Examine/ProjectNodeIndexDataService.cs:222 | the three-part text reads back as the version; it is non-empty and has no comma; each of its three dot-separated groups is written without a leading zero |
| VersionCodec.ToString3Injective | OurUmbraco/Our/Examine/ProjectNodeIndexDataService.cs:222 | distinct versions are written as distinct texts |
| Text.Split | OurUmbraco/Our/Examine/ProjectNodeIndexDataService.cs:188 | the pieces contain no separator; joining them with the separator gives the input back |
| Text.SplitNonEmpty | OurUmbraco/Our/Examine/ProjectNodeIndexDataService.cs:319 | the pieces are non-empty and separator-free, and a text is a piece exactly when it is a non-empty piece of the plain split |
| Text.SplitNonEmptyConcat | OurUmbraco/Our/Examine/ProjectNodeIndexDataService.cs:319 | at a separator, the pieces are those of the left side followed by those of the right side, so the pieces keep their order in the text |
| Text.SplitNonEmptyWithoutSeparator | OurUmbraco/Our/Examine/ProjectNodeIndexDataService.cs:319 | a text without the separator is a single piece, or no piece when it is empty |
| Text.SplitConcat | OurUmbraco/Our/Examine/ProjectNodeIndexDataService.cs:188 | the plain split at one separator is the split of the left side followed by the split of the right side |
| Text.RemoveEmptyConcat | OurUmbraco/Our/Examine/ProjectNodeIndexDataService.cs:319 | dropping empty entries works piecewise over concatenation, so the kept entries stay in order |
| Text.SplitJoin | OurUmbraco/Our/Examine/ProjectNodeIndexDataService.cs:218-222 | `string.Join` of separator-free pieces splits back into exactly those pieces |
| Text.JoinSplitNonEmptyRoundTrip | OurUmbraco/Our/Examine/ProjectNodeIndexDataService.cs:218-222 | joining non-empty, separator-free tokens and splitting again with empty entries removed gives back the same tokens |
| Text.TrimBy | OurUmbraco/Our/Examine/ProjectNodeIndexDataService.cs:187 | the result is a contiguous slice of the input; only dropped characters are removed at either end; neither end of the result is a dropped character |
| Text.TrimEmptyIffBlank | OurUmbraco/Our/Examine/ProjectNodeIndexDataService.cs:373 | trimming white space gives "" exactly when the text is blank; a trimmed text is blank exactly when it is empty, so a trimmed category fails the `IsNullOrWhiteSpace` test exactly when it is empty |
| Text.ToLower | OurUmbraco/Our/Examine/ProjectNodeIndexDataService.cs:161 | same length; upper-case ASCII letters become lower case; every other character is kept |
| Text.IntToString | OurUmbraco/Our/Examine/ProjectNodeIndexDataService.cs:205-211 | the decimal text of an int is well formed and parses back to the int; it has no leading zero, and a '-' sign is written only for a negative int (never "-0") |
| Text.IntToStringInjective | OurUmbraco/Our/Examine/ProjectNodeIndexDataService.cs:205-211 | distinct ints have distinct texts |
| Timestamp.Format | OurUmbraco/Our/Examine/ProjectNodeIndexDataService.cs:162-163 | the text is 19 characters with '-', '-', ' ', ':', ':' at positions 4, 7, 10, 13 and 16; each digit group reads back as its date or time component |
| Timestamp.FormatInjective | OurUmbraco/Our/Examine/ProjectNodeIndexDataService.cs:162-163 | distinct valid timestamps are formatted differently |
| CategoryResolver.GatheringNodeData | OurUmbraco/Our/Examine/ProjectNodeIndexDataService.cs:366-385 | fails with a key error exactly when the row has no categoryFolder; fails with a null reference exactly when the field is blank and the cached node is a root; otherwise only categoryFolder can change, only when it was blank and the parent is a "ProjectGroup", and then to the parent name lower-cased and trimmed |
| CategoryResolver.GatheringNodeDataIdempotent | OurUmbraco/Our/Examine/ProjectNodeIndexDataService.cs:366-385 | running the handler again on its own output changes nothing |
| Indexing.ShapedVersionFields | OurUmbraco/Our/Examine/ProjectNodeIndexDataService.cs:185-333 | after shaping a document built from the row, its versions, compatVersions and minimumVersionStrict fields are exactly the cleaned and strict tokens, one field each, in order |
| Indexing.StrictVersionsRangeQueryable | OurUmbraco/Our/Examine/ProjectNodeIndexDataService.cs:222-339 | with a version reader that accepts the three-part text of any version whose components fit an int, every such strict file's minimum version is among the num_version numbers of the shaped document |
| Indexing.BoundedParseReadsThreePartText | OurUmbraco/Our/Examine/ProjectNodeIndexDataService.cs:269-274 | the strict three-part reading, refusing components beyond an int as `System.Version.TryParse` does, meets that reader hypothesis |

## Left out

- `EnsureUmbracoContext`, the XPath query that picks the live projects in `GetAllData`, and the debug logging are not modelled. They are infrastructure and I/O. `GetAllData` takes the list of projects the query returns.
- The statistics queries `Utils.GetProjectTotalVotes`, `GetProjectTotalPackageDownload`, `GetProjectCompatibleVersions` and `WikiFile.CurrentFiles` are not modelled. Only their results appear, as the maps in `Statistics`.
- `StripHtml`, `GetFromUmbracoString`, `GetAllStrictSupportedPackageVersions` and `System.Version.TryParse` are parameters. Their code is not part of this model.
- `GetNumericalValue` is not part of this model either. It is pinned to the formula in the remarks of `AddNumericalVersionValue` (lines 261-265), major·1000000 + minor·1000 + build, for every version. Those remarks call the number "Right padded", but their examples (7.5.0 as 007005000) pad on the left; the model follows the examples. `AddNumericalVersionValue` checks no range before encoding, so the model rejects no version. Injectivity and order are proved only for components in 0..999.
- `System.Version` has a fourth (revision) component and an undefined build. Neither is modelled: a version is a triple of naturals. So `ToString(3)` (line 222) is total in the model. In the source it throws `ArgumentException` for a version whose build is undefined, and that exception would abort the whole `GetAllData` enumeration. Components are unbounded naturals, while `System.Version` holds `int`s. The reader hypothesis of Indexing.StrictVersionsRangeQueryable, and its conclusion, therefore cover only versions whose components fit an `int`.
- Popularity.UpdateDateScore: the days since the update are an exact real number. The rounding of the `double` that `TotalDays` returns is not modelled.
- `DateTime.Now` is read afresh for every project (line 98). Reading it is not modelled; the elapsed time is an input.
- RecordTransformer.GetAllData: the clock is one function `daysSince` from update date to elapsed days, so two projects with the same update date get the same elapsed time. In the source, the clock is read again for each project, and the times may differ slightly. No property depends on this.
- Text.ToLower: only ASCII letters are lower-cased. Neither Unicode mapping is modelled. Line 186 calls `ToLower()`, which follows the current culture; for example, Turkish maps 'I' to a dotless 'ı'. Lines 161 and 381 call `ToLowerInvariant()`, which follows the invariant culture. For ASCII text outside such cultures, both agree with the model.
- Timestamp.Format: the `:` separator is written literally, and `yyyy` is read as a year of the Gregorian calendar. The current culture's time separator and calendar (lines 162-163) are not modelled.
- Text.IntToString: numbers are written as in the invariant culture, with `-` as the negative sign. `ToString()` on the score, votes, downloads and file count (lines 205-211) uses the current culture's negative sign, which is not modelled.
- RecordTransformer.MapProjectToSimpleDataIndexItem: the `simpleDataSet` argument is not modelled. The source adds the nineteen keys to the caller's dictionary with `Add`, which throws `ArgumentException` if a key is already there. The model builds a fresh row, which is what `GetAllData` passes (line 243).
- Null string properties are not modelled. In the row, the description, package GUID, `worksOnUaaS` text, URL and names are plain strings. A missing parent of the project (a null `project.Parent`) is also not modelled.
- The content store's conversion of properties to `bool` (`projectLive`, `approved`, `worksOnUaaS`, `openForCollab`) is not modelled. The converted values are fields of `Project`.
- Lucene's field flags are kept only as a `Shape` tag on each field. The tags cover the Store/Index/TermVector combinations the source uses, and a stored, indexed `NumericField` (line 281). The numeric field's precision step is not modelled.
- `HashSet<string>` enumeration order is taken to be insertion order. The properties about the numeric field are stated as sets, so they do not depend on this choice.
- CategoryResolver.GatheringNodeData: the content cache is a map from node id to node. A `null` value in the field dictionary is not modelled.
- The score is computed in C# `int` arithmetic (lines 134-139), so it wraps around above 2^31 - 1. The model keeps that wrap-around. Popularity.Score is the unbounded sum, and Calculate equals it only while it fits in an `int`.
- The numeric encoding has no range check, so components of 1000 or more spill into the next digit group. VersionCodec.OutOfRangeCollides shows the resulting collision: 0.1000.0 and 1.0.0 both encode to 1000000.

=== FILE: category_resolver.dfy ===
/** `ProjectIndexer_GatheringNodeData`: when a node's row reaches the index
    with a blank `categoryFolder`, the category is taken from the node's
    parent if that parent is a project group. The published content cache is
    a partial map from node id to node. */
module CategoryResolver {

  import opened Wrappers
  import opened Text

  /** The parent of a published node: its document type and name. */
  datatype ParentNode = ParentNode(documentTypeAlias: string, name: string)

  /** A published node; `None` stands for a null `Parent` (a root node). */
  datatype ContentNode = ContentNode(parent: Option<ParentNode>)

  /** The exceptions the handler can raise: reading a missing dictionary
      key, and dereferencing a null parent. */
  datatype GatherError = KeyNotFound | NullReference

  const CategoryField: string := "categoryFolder"
  const ProjectGroupAlias: string := "ProjectGroup"

  /** The category a project-group parent gives: its name, lower-cased and
      trimmed. */
  function CategoryName(parent: ParentNode): string {
    Trim(ToLower(parent.name))
  }

  /** The handler, returning the updated row or the exception it raises. It
      fails only when the row has no `categoryFolder` key, or when the field
      is blank and the node found in the cache is a root. It changes nothing
      but `categoryFolder`, and that only when the field was blank, the node
      is in the cache and its parent is a project group; a node missing from
      the cache leaves the row as it is. */
  function GatheringNodeData(fields: map<string, string>, nodeId: int, cache: map<int, ContentNode>): (r: Result<map<string, string>, GatherError>)
    ensures r == Failure(KeyNotFound) <==> CategoryField !in fields
    ensures r == Failure(NullReference) <==>
      CategoryField in fields && IsBlank(fields[CategoryField]) && nodeId in cache && cache[nodeId].parent.None?
    ensures r.Success? ==> r.value.Keys == fields.Keys
    ensures r.Success? ==> forall k :: k in fields && k != CategoryField ==> r.value[k] == fields[k]
    ensures r.Success? && r.value[CategoryField] != fields[CategoryField] ==>
      && IsBlank(fields[CategoryField])
      && nodeId in cache
      && cache[nodeId].parent.Some?
      && cache[nodeId].parent.value.documentTypeAlias == ProjectGroupAlias
      && r.value[CategoryField] == CategoryName(cache[nodeId].parent.value)
    ensures (&& CategoryField in fields && IsBlank(fields[CategoryField]) && nodeId in cache
             && cache[nodeId].parent.Some? && cache[nodeId].parent.value.documentTypeAlias == ProjectGroupAlias) ==>
      r == Success(fields[CategoryField := CategoryName(cache[nodeId].parent.value)])
  {
    if CategoryField !in fields then Failure(KeyNotFound)
    else if IsBlank(fields[CategoryField]) then
      if nodeId !in cache then Success(fields)
      else
        match cache[nodeId].parent
        case None => Failure(NullReference)
        case Some(parent) =>
          if parent.documentTypeAlias == ProjectGroupAlias then
            Success(fields[CategoryField := CategoryName(parent)])
          else
            Success(fields)
    else
      Success(fields)
  }

  /** Running the handler on its own output changes nothing more. */
  lemma GatheringNodeDataIdempotent(fields: map<string, string>, nodeId: int, cache: map<int, ContentNode>)
    requires GatheringNodeData(fields, nodeId, cache).Success?
    ensures GatheringNodeData(GatheringNodeData(fields, nodeId, cache).value, nodeId, cache)
      == GatheringNodeData(fields, nodeId, cache)
  {
    var once := GatheringNodeData(fields, nodeId, cache).value;
    if once != fields {
      var parent := cache[nodeId].parent.value;
      assert once == fields[CategoryField := CategoryName(parent)];
      assert once[CategoryField := CategoryName(parent)] == once;
    }
  }
}

=== FILE: document_shaper.dfy ===
/** `ProjectIndexer_DocumentWriting` and `AddNumericalVersionValue`: the
    last shaping of a project's index document before it is written. The
    body is stored raw and re-added with markup stripped; each
    comma-delimited version field becomes one field per version; every
    distinct version token that parses as a version gets a numeric
    `num_version` field for range queries.

    A document is an ordered list of named fields in which a name may
    repeat. Its meaning for the index is, for each name, the ordered list of
    fields carrying it (`Named`); the properties below are stated that way.
    The source mutates the document in place; here each step returns a new
    document. */
module DocumentShaper {

  import opened Wrappers
  import opened Text
  import opened VersionCodec

  /** The Lucene options a field is added with, as tags. */
  datatype Shape =
    | Original                 // as the engine built it from the row
    | StoredNotAnalyzed        // Store.YES, Index.NOT_ANALYZED_NO_NORMS, TermVector.NO
    | AnalyzedWithTermVectors  // Store.YES, Index.ANALYZED, TermVector.YES
    | NumericStored            // a NumericField, Store.YES, indexed

  datatype Value = Text(text: string) | Numeric(number: int)

  datatype Field = Field(name: string, value: Value, shape: Shape)

  type Document = seq<Field>

  /** `LuceneIndexer.SpecialFieldPrefix`, the prefix of Examine's own
      field names. */
  const SpecialFieldPrefix: string := "__"
  const BodyField: string := "body"
  const RawBodyField: string := SpecialFieldPrefix + BodyField
  const NumVersionField: string := "num_version"
  const VersionsField: string := "versions"
  const MinimumVersionStrictField: string := "minimumVersionStrict"
  const CompatVersionsField: string := "compatVersions"

  /** The delimited fields, in the order the source visits them. */
  const DelimitedVersionFields: seq<string> := [VersionsField, MinimumVersionStrictField, CompatVersionsField]

  /** `StripHtml`, supplied by the caller. */
  type Stripper = string -> string

  /** `System.Version.TryParse`, supplied by the caller: `None` where the
      source's parse fails. */
  type VersionParser = string -> Option<Version>

  // ---------------------------------------------------------------------------
  // Documents as multimaps
  // ---------------------------------------------------------------------------

  /** The fields named `name`, in document order. */
  function Named(doc: Document, name: string): (r: Document)
    ensures |r| <= |doc|
    ensures forall i :: 0 <= i < |r| ==> r[i].name == name && r[i] in doc
  {
    if doc == [] then []
    else if doc[0].name == name then [doc[0]] + Named(doc[1..], name)
    else Named(doc[1..], name)
  }

  /** Looking up a name distributes over concatenation of documents. */
  lemma {:induction false} NamedConcat(a: Document, b: Document, name: string)
    ensures Named(a + b, name) == Named(a, name) + Named(b, name)
    decreases |a|
  {
    if a == [] {
      assert a + b == b;
    } else {
      assert (a + b)[0] == a[0];
      assert (a + b)[1..] == a[1..] + b;
      NamedConcat(a[1..], b, name);
    }
  }

  /** All fields but the first. */
  function Tail(fields: Document): Document {
    if fields == [] then [] else fields[1..]
  }

  /** Lucene's `Document.RemoveField`: drops the FIRST field named `name`,
      if any, and leaves every other field where it was. */
  function RemoveField(doc: Document, name: string): (r: Document)
    ensures Named(r, name) == Tail(Named(doc, name))
    ensures forall n :: n != name ==> Named(r, n) == Named(doc, n)
    ensures Named(doc, name) == [] ==> r == doc
    ensures forall f :: f in r ==> f in doc
  {
    if doc == [] then []
    else if doc[0].name == name then doc[1..]
    else
      var rest := RemoveField(doc[1..], name);
      var r := [doc[0]] + rest;
      assert r[0] == doc[0] && r[1..] == rest;
      r
  }

  // ---------------------------------------------------------------------------
  // Step 1: the body
  // ---------------------------------------------------------------------------

  /** The raw copy of the body, kept under the prefixed name. */
  function RawBody(text: string): Field {
    Field(RawBodyField, Text(text), StoredNotAnalyzed)
  }

  /** The searchable body, markup stripped. */
  function StrippedBody(text: string, strip: Stripper): Field {
    Field(BodyField, Text(strip(text)), AnalyzedWithTermVectors)
  }

  /** Store the raw body, remove the live `body` field, re-add it stripped. */
  function ShapeBody(fields: map<string, string>, doc: Document, strip: Stripper): (r: Document)
    ensures forall f :: f in r ==> f in doc || f.name == BodyField || f.name == RawBodyField
  {
    if BodyField in fields then
      RemoveField(doc + [RawBody(fields[BodyField])], BodyField) + [StrippedBody(fields[BodyField], strip)]
    else
      doc
  }

  /** With a `body` in the row, the document ends up with one more raw copy
      and its first `body` replaced by the stripped text appended at the
      end; no other name is touched. Without one, nothing changes. */
  lemma ShapeBodyNamed(fields: map<string, string>, doc: Document, strip: Stripper, n: string)
    ensures BodyField in fields ==>
      Named(ShapeBody(fields, doc, strip), BodyField)
        == Tail(Named(doc, BodyField)) + [StrippedBody(fields[BodyField], strip)]
    ensures BodyField in fields ==>
      Named(ShapeBody(fields, doc, strip), RawBodyField)
        == Named(doc, RawBodyField) + [RawBody(fields[BodyField])]
    ensures n != BodyField && n != RawBodyField ==> Named(ShapeBody(fields, doc, strip), n) == Named(doc, n)
    ensures BodyField !in fields ==> ShapeBody(fields, doc, strip) == doc
  {
    if BodyField in fields {
      var raw := RawBody(fields[BodyField]);
      var stripped := StrippedBody(fields[BodyField], strip);
      var added := RemoveField(doc + [raw], BodyField);
      assert RawBodyField != BodyField;
      assert Named([raw], BodyField) == [] && Named([stripped], RawBodyField) == [];
      NamedConcat(added, [stripped], BodyField);
      NamedConcat(added, [stripped], RawBodyField);
      NamedConcat(added, [stripped], n);
      NamedConcat(doc, [raw], BodyField);
      NamedConcat(doc, [raw], RawBodyField);
      NamedConcat(doc, [raw], n);
      assert Tail(Named(doc, BodyField) + []) == Tail(Named(doc, BodyField));
      assert Named(doc, BodyField) + [] == Named(doc, BodyField);
    }
  }

  // ---------------------------------------------------------------------------
  // Step 2: the delimited version fields
  // ---------------------------------------------------------------------------

  /** The versions a delimited field of the row holds: its comma-separated
      pieces, empty ones dropped; none when the row lacks the field. */
  function Tokens(fields: map<string, string>, name: string): (r: seq<string>)
    ensures forall i :: 0 <= i < |r| ==> r[i] != "" && ',' !in r[i]
    ensures name !in fields ==> r == []
    ensures name in fields ==> r == SplitNonEmpty(fields[name], ',')
  {
    if name in fields then SplitNonEmpty(fields[name], ',') else []
  }

  /** One stored, unanalysed field per version, same name, in order. */
  function VersionFields(name: string, tokens: seq<string>): (r: Document)
    ensures |r| == |tokens|
    ensures forall i :: 0 <= i < |r| ==> r[i] == Field(name, Text(tokens[i]), StoredNotAnalyzed)
  {
    seq(|tokens|, i requires 0 <= i < |tokens| => Field(name, Text(tokens[i]), StoredNotAnalyzed))
  }

  lemma {:induction false} NamedVersionFields(name: string, tokens: seq<string>, n: string)
    ensures Named(VersionFields(name, tokens), n) == if n == name then VersionFields(name, tokens) else []
    decreases |tokens|
  {
    var fs := VersionFields(name, tokens);
    if tokens != [] {
      assert fs[1..] == VersionFields(name, tokens[1..]);
      NamedVersionFields(name, tokens[1..], n);
    }
  }

  /** Replace the single delimited field `name` by one field per version. */
  function ShapeDelimited(fields: map<string, string>, doc: Document, name: string): (r: Document)
    ensures forall f :: f in r ==> f in doc || f.name == name
  {
    if name in fields then RemoveField(doc, name) + VersionFields(name, Tokens(fields, name)) else doc
  }

  /** A present delimited field loses its first (delimited) occurrence and
      gains one field per version in order, duplicates kept; an absent one
      is left alone; other names are never touched. */
  lemma ShapeDelimitedNamed(fields: map<string, string>, doc: Document, name: string, n: string)
    ensures name in fields ==>
      Named(ShapeDelimited(fields, doc, name), name) == Tail(Named(doc, name)) + VersionFields(name, Tokens(fields, name))
    ensures name !in fields ==> ShapeDelimited(fields, doc, name) == doc
    ensures n != name ==> Named(ShapeDelimited(fields, doc, name), n) == Named(doc, n)
  {
    if name in fields {
      var removed := RemoveField(doc, name);
      var added := VersionFields(name, Tokens(fields, name));
      NamedConcat(removed, added, name);
      NamedVersionFields(name, Tokens(fields, name), name);
      NamedConcat(removed, added, n);
      NamedVersionFields(name, Tokens(fields, name), n);
    }
  }

  // ---------------------------------------------------------------------------
  // The distinct versions
  // ---------------------------------------------------------------------------

  predicate NoDuplicates(s: seq<string>) {
    forall i, j :: 0 <= i < j < |s| ==> s[i] != s[j]
  }

  /** `foreach (var version in versions) allVersions.Add(version)` on a
      `HashSet<string>` listed in insertion order: what was there stays, in
      place, and each new string is added once. */
  function AddAll(acc: seq<string>, tokens: seq<string>): (r: seq<string>)
    requires NoDuplicates(acc)
    ensures NoDuplicates(r)
    ensures forall t :: t in r <==> t in acc || t in tokens
    ensures |acc| <= |r| && r[..|acc|] == acc
    decreases |tokens|
  {
    if tokens == [] then acc
    else
      var next := if tokens[0] in acc then acc else acc + [tokens[0]];
      assert forall t :: t in tokens <==> t == tokens[0] || t in tokens[1..];
      var r := AddAll(next, tokens[1..]);
      assert r[..|acc|] == next[..|acc|];
      r
  }

  /** The set `allVersions` after the loop over the three delimited fields:
      every version of any of them, each once. */
  function CollectVersions(fields: map<string, string>): (r: seq<string>)
    ensures NoDuplicates(r)
    ensures forall t :: t in r <==>
      t in Tokens(fields, VersionsField) || t in Tokens(fields, MinimumVersionStrictField)
      || t in Tokens(fields, CompatVersionsField)
  {
    var a := AddAll([], Tokens(fields, VersionsField));
    var b := AddAll(a, Tokens(fields, MinimumVersionStrictField));
    AddAll(b, Tokens(fields, CompatVersionsField))
  }

  // ---------------------------------------------------------------------------
  // Step 3: the numeric version field
  // ---------------------------------------------------------------------------

  /** The positions of the tokens that parse as versions. */
  function ParsableIndices(versions: seq<string>, tryParse: VersionParser): set<nat> {
    set i: nat | i < |versions| && tryParse(versions[i]).Some?
  }

  /** The last token adds its own position when it parses. */
  lemma ParsableIndicesLast(versions: seq<string>, tryParse: VersionParser)
    requires versions != []
    ensures |ParsableIndices(versions, tryParse)| ==
      |ParsableIndices(versions[..|versions| - 1], tryParse)| + (if tryParse(versions[|versions| - 1]).Some? then 1 else 0)
  {
    var init, last := versions[..|versions| - 1], |versions| - 1;
    assert last !in ParsableIndices(init, tryParse);
    if tryParse(versions[last]).Some? {
      assert ParsableIndices(versions, tryParse) == ParsableIndices(init, tryParse) + {last};
    } else {
      assert ParsableIndices(versions, tryParse) == ParsableIndices(init, tryParse);
    }
  }

  /** `versions.Select(TryParse).Where(x => x != null)`: the versions that
      parse, in token order, one per parsable token (duplicates kept). A
      version is in the result exactly when some token parses to it. */
  function ParsedVersions(versions: seq<string>, tryParse: VersionParser): (r: seq<Version>)
    ensures |r| <= |versions|
    ensures |r| == |ParsableIndices(versions, tryParse)|
    ensures forall v :: v in r <==> exists t :: t in versions && tryParse(t) == Some(v)
    ensures |versions| == 1 ==>
      r == (if tryParse(versions[0]).Some? then [tryParse(versions[0]).value] else [])
    decreases |versions|
  {
    if versions == [] then
      assert ParsableIndices(versions, tryParse) == {};
      []
    else
      var init, last := versions[..|versions| - 1], versions[|versions| - 1];
      ParsableIndicesLast(versions, tryParse);
      assert forall t :: t in versions <==> t in init || t == last;
      var rest := ParsedVersions(init, tryParse);
      match tryParse(last)
      case Some(v) => rest + [v]
      case None => rest
  }

  /** The versions parsed from an appended token come last. */
  lemma ParsedVersionsSnoc(init: seq<string>, t: string, tryParse: VersionParser)
    ensures ParsedVersions(init + [t], tryParse) == ParsedVersions(init, tryParse) + ParsedVersions([t], tryParse)
  {
    var v := init + [t];
    assert v[..|v| - 1] == init;
    assert v[|v| - 1] == t;
  }

  /** Parsing works piecewise over concatenation, so the parsed versions
      keep their tokens' order. */
  lemma {:induction false} ParsedVersionsConcat(a: seq<string>, b: seq<string>, tryParse: VersionParser)
    ensures ParsedVersions(a + b, tryParse) == ParsedVersions(a, tryParse) + ParsedVersions(b, tryParse)
    decreases |b|
  {
    if b == [] {
      assert a + b == a;
    } else {
      var binit, t := b[..|b| - 1], b[|b| - 1];
      assert b == binit + [t];
      assert a + b == (a + binit) + [t];
      ParsedVersionsSnoc(a + binit, t, tryParse);
      ParsedVersionsSnoc(binit, t, tryParse);
      ParsedVersionsConcat(a, binit, tryParse);
      var pa, pi, pl := ParsedVersions(a, tryParse), ParsedVersions(binit, tryParse), ParsedVersions([t], tryParse);
      assert (pa + pi) + pl == pa + (pi + pl);
    }
  }

  /** One numeric field per version, valued at its encoding. */
  function NumericFields(fieldName: string, versions: seq<Version>): (r: Document)
    ensures |r| == |versions|
    ensures forall i :: 0 <= i < |r| ==> r[i] == Field(fieldName, Numeric(NumericalValue(versions[i])), NumericStored)
  {
    seq(|versions|, i requires 0 <= i < |versions| => Field(fieldName, Numeric(NumericalValue(versions[i])), NumericStored))
  }

  lemma {:induction false} NamedNumericFields(fieldName: string, versions: seq<Version>, n: string)
    ensures Named(NumericFields(fieldName, versions), n) == if n == fieldName then NumericFields(fieldName, versions) else []
    decreases |versions|
  {
    var fs := NumericFields(fieldName, versions);
    if versions != [] {
      assert fs[1..] == NumericFields(fieldName, versions[1..]);
      NamedNumericFields(fieldName, versions[1..], n);
    }
  }

  /** The numbers the numeric fields of `doc` carry. */
  function NumericValues(doc: Document): set<int> {
    set i | 0 <= i < |doc| && doc[i].value.Numeric? :: doc[i].value.number
  }

  /** The encodings of the tokens that parse. */
  function EncodedTokens(versions: seq<string>, tryParse: VersionParser): set<int> {
    set t | t in versions && tryParse(t).Some? :: NumericalValue(tryParse(t).value)
  }

  lemma NumericFieldsValues(fieldName: string, versions: seq<string>, tryParse: VersionParser)
    ensures NumericValues(NumericFields(fieldName, ParsedVersions(versions, tryParse))) == EncodedTokens(versions, tryParse)
  {
    var parsed := ParsedVersions(versions, tryParse);
    var fs := NumericFields(fieldName, parsed);
    forall x | x in NumericValues(fs) ensures x in EncodedTokens(versions, tryParse) {
      var i :| 0 <= i < |fs| && fs[i].value.Numeric? && fs[i].value.number == x;
      assert parsed[i] in parsed;
      var t :| t in versions && tryParse(t) == Some(parsed[i]);
    }
    forall x | x in EncodedTokens(versions, tryParse) ensures x in NumericValues(fs) {
      var t :| t in versions && tryParse(t).Some? && x == NumericalValue(tryParse(t).value);
      assert tryParse(t).value in parsed;
      var i :| 0 <= i < |parsed| && parsed[i] == tryParse(t).value;
      assert fs[i].value.number == x;
    }
  }

  /** `AddNumericalVersionValue`: appends numeric fields named `fieldName`
      and nothing else: exactly one per token that parses, in token order,
      valued at that token's encoding; tokens that do not parse add
      nothing. */
  function AddNumericalVersionValue(doc: Document, fieldName: string, versions: seq<string>, tryParse: VersionParser): (r: Document)
    ensures |doc| <= |r| <= |doc| + |versions| && r[..|doc|] == doc
    ensures forall i :: |doc| <= i < |r| ==>
      r[i].name == fieldName && r[i].shape == NumericStored && r[i].value.Numeric?
    ensures NumericValues(r[|doc|..]) == EncodedTokens(versions, tryParse)
    ensures |r| == |doc| + |ParsableIndices(versions, tryParse)|
  {
    var added := NumericFields(fieldName, ParsedVersions(versions, tryParse));
    NumericFieldsValues(fieldName, versions, tryParse);
    var r := doc + added;
    assert r[|doc|..] == added;
    r
  }

  /** The added numeric fields follow the parsed versions position by
      position, so they come in token order. */
  lemma AddNumericalVersionValueOrder(doc: Document, fieldName: string, versions: seq<string>, tryParse: VersionParser)
    ensures var r := AddNumericalVersionValue(doc, fieldName, versions, tryParse);
      forall i :: |doc| <= i < |r| ==>
        r[i].value == Numeric(NumericalValue(ParsedVersions(versions, tryParse)[i - |doc|]))
  {
  }

  // ---------------------------------------------------------------------------
  // The whole event
  // ---------------------------------------------------------------------------

  /** `ProjectIndexer_DocumentWriting`: `fields` is the row the document was
      built from, `doc` the document as the engine built it. */
  function DocumentWriting(fields: map<string, string>, doc: Document, strip: Stripper, tryParse: VersionParser): (r: Document)
    ensures forall f :: f in r ==> f in doc || Shaped(f.name)
  {
    var withBody := ShapeBody(fields, doc, strip);
    var withVersions := ShapeDelimited(fields, withBody, VersionsField);
    var withStrict := ShapeDelimited(fields, withVersions, MinimumVersionStrictField);
    var withCompat := ShapeDelimited(fields, withStrict, CompatVersionsField);
    var r := AddNumericalVersionValue(withCompat, NumVersionField, CollectVersions(fields), tryParse);
    assert forall f :: f in withCompat ==> f in doc || Shaped(f.name);
    assert forall f :: f in r ==> f in withCompat || f.name == NumVersionField by {
      forall f | f in r ensures f in withCompat || f.name == NumVersionField {
        var i :| 0 <= i < |r| && r[i] == f;
        if i < |withCompat| {
          assert r[..|withCompat|][i] == f;
        }
      }
    }
    r
  }

  /** The names the event may touch. */
  predicate Shaped(n: string) {
    n == BodyField || n == RawBodyField || n == NumVersionField || n in DelimitedVersionFields
  }

  lemma {:induction false} NamedAllOrNone(doc: Document, n: string)
    ensures (forall i :: 0 <= i < |doc| ==> doc[i].name == n) ==> Named(doc, n) == doc
    ensures (forall i :: 0 <= i < |doc| ==> doc[i].name != n) ==> Named(doc, n) == []
    decreases |doc|
  {
    if doc != [] {
      NamedAllOrNone(doc[1..], n);
      assert [doc[0]] + doc[1..] == doc;
    }
  }

  /** The numeric step appends under its own name only. */
  lemma AddNumericalNamed(doc: Document, fieldName: string, versions: seq<string>, tryParse: VersionParser, n: string)
    ensures var r := AddNumericalVersionValue(doc, fieldName, versions, tryParse);
      && (n != fieldName ==> Named(r, n) == Named(doc, n))
      && Named(r, fieldName) == Named(doc, fieldName) + r[|doc|..]
  {
    var r := AddNumericalVersionValue(doc, fieldName, versions, tryParse);
    var added := r[|doc|..];
    assert r == doc + added;
    NamedConcat(doc, added, n);
    NamedConcat(doc, added, fieldName);
    NamedAllOrNone(added, n);
    NamedAllOrNone(added, fieldName);
  }

  /** The document after the body and delimited steps, before the numeric one. */
  function ShapedText(fields: map<string, string>, doc: Document, strip: Stripper): Document {
    var withBody := ShapeBody(fields, doc, strip);
    var withVersions := ShapeDelimited(fields, withBody, VersionsField);
    var withStrict := ShapeDelimited(fields, withVersions, MinimumVersionStrictField);
    ShapeDelimited(fields, withStrict, CompatVersionsField)
  }

  lemma DocumentWritingSplitsAtNumeric(fields: map<string, string>, doc: Document, strip: Stripper, tryParse: VersionParser)
    ensures DocumentWriting(fields, doc, strip, tryParse)
      == AddNumericalVersionValue(ShapedText(fields, doc, strip), NumVersionField, CollectVersions(fields), tryParse)
  {
  }

  /** What a delimited field of the row turns the fields of its name into:
      the first dropped and one per token added; nothing when absent. */
  function ReshapedField(fields: map<string, string>, doc: Document, name: string): Document {
    if name in fields then Tail(Named(doc, name)) + VersionFields(name, Tokens(fields, name)) else Named(doc, name)
  }

  lemma ShapedTextVersions(fields: map<string, string>, doc: Document, strip: Stripper)
    ensures Named(ShapedText(fields, doc, strip), VersionsField) == ReshapedField(fields, doc, VersionsField)
  {
    var name := VersionsField;
    var d1 := ShapeBody(fields, doc, strip);
    var d2 := ShapeDelimited(fields, d1, VersionsField);
    var d3 := ShapeDelimited(fields, d2, MinimumVersionStrictField);
    assert Named(d1, name) == Named(doc, name) by { ShapeBodyNamed(fields, doc, strip, name); }
    assert Named(d2, name) == ReshapedField(fields, doc, name) by { ShapeDelimitedNamed(fields, d1, VersionsField, name); }
    assert Named(d3, name) == Named(d2, name) by { ShapeDelimitedNamed(fields, d2, MinimumVersionStrictField, name); }
    ShapeDelimitedNamed(fields, d3, CompatVersionsField, name);
  }

  lemma ShapedTextMinimumVersionStrict(fields: map<string, string>, doc: Document, strip: Stripper)
    ensures Named(ShapedText(fields, doc, strip), MinimumVersionStrictField)
      == ReshapedField(fields, doc, MinimumVersionStrictField)
  {
    var name := MinimumVersionStrictField;
    var d1 := ShapeBody(fields, doc, strip);
    var d2 := ShapeDelimited(fields, d1, VersionsField);
    var d3 := ShapeDelimited(fields, d2, MinimumVersionStrictField);
    assert Named(d1, name) == Named(doc, name) by { ShapeBodyNamed(fields, doc, strip, name); }
    assert Named(d2, name) == Named(d1, name) by { ShapeDelimitedNamed(fields, d1, VersionsField, name); }
    assert Named(d3, name) == ReshapedField(fields, doc, name) by { ShapeDelimitedNamed(fields, d2, MinimumVersionStrictField, name); }
    ShapeDelimitedNamed(fields, d3, CompatVersionsField, name);
  }

  lemma ShapedTextCompatVersions(fields: map<string, string>, doc: Document, strip: Stripper)
    ensures Named(ShapedText(fields, doc, strip), CompatVersionsField) == ReshapedField(fields, doc, CompatVersionsField)
  {
    var name := CompatVersionsField;
    var d1 := ShapeBody(fields, doc, strip);
    var d2 := ShapeDelimited(fields, d1, VersionsField);
    var d3 := ShapeDelimited(fields, d2, MinimumVersionStrictField);
    assert Named(d1, name) == Named(doc, name) by { ShapeBodyNamed(fields, doc, strip, name); }
    assert Named(d2, name) == Named(d1, name) by { ShapeDelimitedNamed(fields, d1, VersionsField, name); }
    assert Named(d3, name) == Named(d1, name) by { ShapeDelimitedNamed(fields, d2, MinimumVersionStrictField, name); }
    ShapeDelimitedNamed(fields, d3, CompatVersionsField, name);
  }

  /** The body and delimited steps leave a delimited field present in the
      row without its first occurrence and with one field per token added;
      an absent one is left alone. */
  lemma ShapedTextVersionField(fields: map<string, string>, doc: Document, strip: Stripper, name: string)
    requires name in DelimitedVersionFields
    ensures Named(ShapedText(fields, doc, strip), name) == ReshapedField(fields, doc, name)
  {
    if name == VersionsField {
      ShapedTextVersions(fields, doc, strip);
    } else if name == MinimumVersionStrictField {
      ShapedTextMinimumVersionStrict(fields, doc, strip);
    } else {
      ShapedTextCompatVersions(fields, doc, strip);
    }
  }

  /** Every delimited version field present in the row loses its delimited
      occurrence and gains one field per non-empty comma-separated token, in
      order, duplicates kept; when the engine built exactly one such field,
      the fields of that name are exactly the tokens. A delimited field
      absent from the row is left untouched. */
  lemma DocumentWritingVersionField(fields: map<string, string>, doc: Document, strip: Stripper, tryParse: VersionParser, name: string)
    requires name in DelimitedVersionFields
    ensures name in fields ==>
      Named(DocumentWriting(fields, doc, strip, tryParse), name)
        == Tail(Named(doc, name)) + VersionFields(name, SplitNonEmpty(fields[name], ','))
    ensures name in fields && |Named(doc, name)| == 1 ==>
      Named(DocumentWriting(fields, doc, strip, tryParse), name) == VersionFields(name, SplitNonEmpty(fields[name], ','))
    ensures name !in fields ==> Named(DocumentWriting(fields, doc, strip, tryParse), name) == Named(doc, name)
  {
    DocumentWritingBeforeNumeric(fields, doc, strip, tryParse, name);
    ShapedTextVersionField(fields, doc, strip, name);
    if name in fields {
      assert Tokens(fields, name) == SplitNonEmpty(fields[name], ',');
      if |Named(doc, name)| == 1 {
        assert Tail(Named(doc, name)) + VersionFields(name, Tokens(fields, name)) == VersionFields(name, Tokens(fields, name));
      }
    }
  }

  /** The numeric step touches no name but its own. */
  lemma DocumentWritingBeforeNumeric(fields: map<string, string>, doc: Document, strip: Stripper, tryParse: VersionParser, name: string)
    requires name != NumVersionField
    ensures Named(DocumentWriting(fields, doc, strip, tryParse), name) == Named(ShapedText(fields, doc, strip), name)
  {
    DocumentWritingSplitsAtNumeric(fields, doc, strip, tryParse);
    AddNumericalNamed(ShapedText(fields, doc, strip), NumVersionField, CollectVersions(fields), tryParse, name);
  }

  /** A `body` in the row leaves the document with one more raw copy under
      the prefixed name, and the stripped text replacing the first `body`. */
  lemma DocumentWritingBody(fields: map<string, string>, doc: Document, strip: Stripper, tryParse: VersionParser)
    requires BodyField in fields
    ensures Named(DocumentWriting(fields, doc, strip, tryParse), RawBodyField)
      == Named(doc, RawBodyField) + [RawBody(fields[BodyField])]
    ensures Named(DocumentWriting(fields, doc, strip, tryParse), BodyField)
      == Tail(Named(doc, BodyField)) + [StrippedBody(fields[BodyField], strip)]
  {
    var d1 := ShapeBody(fields, doc, strip);
    var d2 := ShapeDelimited(fields, d1, VersionsField);
    var d3 := ShapeDelimited(fields, d2, MinimumVersionStrictField);
    var d4 := ShapeDelimited(fields, d3, CompatVersionsField);
    forall n | n == BodyField || n == RawBodyField
      ensures Named(DocumentWriting(fields, doc, strip, tryParse), n) == Named(d1, n)
    {
      AddNumericalNamed(d4, NumVersionField, CollectVersions(fields), tryParse, n);
      ShapeDelimitedNamed(fields, d1, VersionsField, n);
      ShapeDelimitedNamed(fields, d2, MinimumVersionStrictField, n);
      ShapeDelimitedNamed(fields, d3, CompatVersionsField, n);
    }
    ShapeBodyNamed(fields, doc, strip, BodyField);
  }

  /** The `num_version` fields gained are numeric, one per distinct token
      across all three delimited fields that parses as a version, and carry
      exactly those tokens' encodings. */
  lemma DocumentWritingNumericVersions(fields: map<string, string>, doc: Document, strip: Stripper, tryParse: VersionParser)
    ensures var before, after := Named(doc, NumVersionField), Named(DocumentWriting(fields, doc, strip, tryParse), NumVersionField);
      && |before| <= |after| && after[..|before|] == before
      && (forall i :: |before| <= i < |after| ==> after[i].value.Numeric? && after[i].shape == NumericStored)
      && NumericValues(after[|before|..]) == EncodedTokens(CollectVersions(fields), tryParse)
      && |after| - |before| == |ParsableIndices(CollectVersions(fields), tryParse)|
  {
    var shaped := ShapedText(fields, doc, strip);
    var r := DocumentWriting(fields, doc, strip, tryParse);
    DocumentWritingNumericLayout(fields, doc, strip, tryParse);
    AppendedNumeric(Named(doc, NumVersionField), Named(r, NumVersionField), shaped, r,
      NumVersionField, CollectVersions(fields), tryParse);
  }

  /** A list that extends `before` by what the numeric step appended has
      the numeric step's guarantees on its new part. */
  lemma AppendedNumeric(before: Document, after: Document, doc: Document, r: Document,
                        fieldName: string, versions: seq<string>, tryParse: VersionParser)
    requires r == AddNumericalVersionValue(doc, fieldName, versions, tryParse)
    requires after == before + r[|doc|..]
    ensures |before| <= |after| && after[..|before|] == before
    ensures forall i :: |before| <= i < |after| ==> after[i].value.Numeric? && after[i].shape == NumericStored
    ensures NumericValues(after[|before|..]) == EncodedTokens(versions, tryParse)
    ensures |after| - |before| == |ParsableIndices(versions, tryParse)|
  {
    var added := r[|doc|..];
    assert after[|before|..] == added;
    forall i | |before| <= i < |after| ensures after[i].value.Numeric? && after[i].shape == NumericStored {
      assert after[i] == r[|doc| + i - |before|];
    }
  }

  /** The `num_version` fields after the event are those of the document
      followed by the fields the numeric step appends. */
  lemma DocumentWritingNumericLayout(fields: map<string, string>, doc: Document, strip: Stripper, tryParse: VersionParser)
    ensures var shaped := ShapedText(fields, doc, strip);
      var r := DocumentWriting(fields, doc, strip, tryParse);
      && r == AddNumericalVersionValue(shaped, NumVersionField, CollectVersions(fields), tryParse)
      && Named(r, NumVersionField) == Named(doc, NumVersionField) + r[|shaped|..]
  {
    var d1 := ShapeBody(fields, doc, strip);
    var d2 := ShapeDelimited(fields, d1, VersionsField);
    var d3 := ShapeDelimited(fields, d2, MinimumVersionStrictField);
    var d4 := ShapeDelimited(fields, d3, CompatVersionsField);
    var n := NumVersionField;
    DocumentWritingSplitsAtNumeric(fields, doc, strip, tryParse);
    AddNumericalNamed(d4, n, CollectVersions(fields), tryParse, n);
    ShapeBodyNamed(fields, doc, strip, n);
    ShapeDelimitedNamed(fields, d1, VersionsField, n);
    ShapeDelimitedNamed(fields, d2, MinimumVersionStrictField, n);
    ShapeDelimitedNamed(fields, d3, CompatVersionsField, n);
  }

  /** Fields the event does not shape keep their values and order. */
  lemma DocumentWritingOtherFields(fields: map<string, string>, doc: Document, strip: Stripper, tryParse: VersionParser, n: string)
    requires !Shaped(n)
    ensures Named(DocumentWriting(fields, doc, strip, tryParse), n) == Named(doc, n)
  {
    var d1 := ShapeBody(fields, doc, strip);
    var d2 := ShapeDelimited(fields, d1, VersionsField);
    var d3 := ShapeDelimited(fields, d2, MinimumVersionStrictField);
    var d4 := ShapeDelimited(fields, d3, CompatVersionsField);
    AddNumericalNamed(d4, NumVersionField, CollectVersions(fields), tryParse, n);
    ShapeBodyNamed(fields, doc, strip, n);
    ShapeDelimitedNamed(fields, d1, VersionsField, n);
    ShapeDelimitedNamed(fields, d2, MinimumVersionStrictField, n);
    ShapeDelimitedNamed(fields, d3, CompatVersionsField, n);
  }

  /** A row with no body and no delimited version field, such as one
      already shaped, goes through unchanged. */
  lemma DocumentWritingNoOp(fields: map<string, string>, doc: Document, strip: Stripper, tryParse: VersionParser)
    requires BodyField !in fields
    requires forall name :: name in DelimitedVersionFields ==> name !in fields
    ensures DocumentWriting(fields, doc, strip, tryParse) == doc
  {
    assert VersionsField !in fields && MinimumVersionStrictField !in fields && CompatVersionsField !in fields;
    assert CollectVersions(fields) == [];
    assert ParsedVersions([], tryParse) == [];
  }
}

=== FILE: indexing.dfy ===
/** The path of one project through the index: the row built by
    `MapProjectToSimpleDataIndexItem` becomes the field dictionary of
    `ProjectIndexer_DocumentWriting`, which reshapes the document the engine
    built from it. */
module Indexing {

  import opened Wrappers
  import opened VersionCodec
  import opened RecordTransformer
  import opened DocumentShaper

  /** The field dictionary handed to the document-writing event carries the
      row's three delimited version fields. */
  predicate CarriesVersions(fields: map<string, string>, row: Row) {
    && VersionsField in fields && fields[VersionsField] == row.versions
    && MinimumVersionStrictField in fields && fields[MinimumVersionStrictField] == row.minimumVersionStrict
    && CompatVersionsField in fields && fields[CompatVersionsField] == row.compatVersions
  }

  /** A document the engine built holding each delimited field once. */
  predicate SingleVersionFields(doc: Document) {
    forall name :: name in DelimitedVersionFields ==> |Named(doc, name)| == 1
  }

  /** After shaping, the `versions`, `compatVersions` and
      `minimumVersionStrict` fields of the document are exactly the cleaned
      and strict tokens the row was built from, one field each, in order. */
  lemma ShapedVersionFields(
    project: Project, indexType: string, projectVotes: int, files: seq<WikiFile>,
    downloads: int, compatVersions: seq<string>, days: real,
    clean: Cleaner, strict: StrictClassifier,
    fields: map<string, string>, doc: Document, strip: Stripper, tryParse: VersionParser)
    requires ValidProject(project)
    requires CleanerWellBehaved(clean)
    ensures var row := MapProjectToSimpleDataIndexItem(project, indexType, projectVotes, files,
                          downloads, compatVersions, days, clean, strict).rowData;
      var shaped := DocumentWriting(fields, doc, strip, tryParse);
      CarriesVersions(fields, row) && SingleVersionFields(doc) ==>
      && Named(shaped, VersionsField) == VersionFields(VersionsField, CleanVersionProperty(project.compatibleVersions, clean))
      && Named(shaped, CompatVersionsField) == VersionFields(CompatVersionsField, CleanTokens(compatVersions, clean))
      && Named(shaped, MinimumVersionStrictField) == VersionFields(MinimumVersionStrictField, StrictVersions(files, strict))
  {
    var row := MapProjectToSimpleDataIndexItem(project, indexType, projectVotes, files,
                 downloads, compatVersions, days, clean, strict).rowData;
    if CarriesVersions(fields, row) && SingleVersionFields(doc) {
      VersionFieldsRoundTrip(project, indexType, projectVotes, files, downloads, compatVersions, days, clean, strict);
      DocumentWritingVersionField(fields, doc, strip, tryParse, VersionsField);
      DocumentWritingVersionField(fields, doc, strip, tryParse, CompatVersionsField);
      DocumentWritingVersionField(fields, doc, strip, tryParse, MinimumVersionStrictField);
    }
  }

  /** A version reader that accepts what `Version.ToString(3)` writes for
      any version whose components fit an `int`, as `System.Version.TryParse`
      does. */
  ghost predicate ReadsThreePartText(tryParse: VersionParser) {
    forall v :: FitsInt32(v) ==> tryParse(ToString3(v)) == Some(v)
  }

  /** The strict three-part reading, refusing components beyond `int`. */
  function BoundedParse(s: string): (r: Option<Version>)
    ensures r.Some? ==> FitsInt32(r.value) && ParseVersion3(s) == r
  {
    match ParseVersion3(s)
    case Some(v) => if FitsInt32(v) then Some(v) else None
    case None => None
  }

  /** Such a reader exists: the hypothesis below is one an `int`-bounded
      parser meets. */
  lemma BoundedParseReadsThreePartText()
    ensures ReadsThreePartText(BoundedParse)
  {
    forall v | FitsInt32(v) ensures BoundedParse(ToString3(v)) == Some(v) {
      assert ParseVersion3(ToString3(v)) == Some(v);
    }
  }

  /** With a reader of three-part text, every strict package file's
      minimum version is among the numbers in the `num_version` fields the
      event adds, so a numeric range query on `num_version` finds the
      project by any of those versions. */
  lemma StrictVersionsRangeQueryable(
    project: Project, indexType: string, projectVotes: int, files: seq<WikiFile>,
    downloads: int, compatVersions: seq<string>, days: real,
    clean: Cleaner, strict: StrictClassifier,
    fields: map<string, string>, doc: Document, strip: Stripper, tryParse: VersionParser)
    requires ValidProject(project)
    requires CleanerWellBehaved(clean)
    ensures var row := MapProjectToSimpleDataIndexItem(project, indexType, projectVotes, files,
                          downloads, compatVersions, days, clean, strict).rowData;
      var before := Named(doc, NumVersionField);
      var after := Named(DocumentWriting(fields, doc, strip, tryParse), NumVersionField);
      CarriesVersions(fields, row) && ReadsThreePartText(tryParse) ==>
      && |before| <= |after|
      && forall i :: 0 <= i < |strict(files)| && FitsInt32(strict(files)[i].minUmbracoVersion) ==>
           NumericalValue(strict(files)[i].minUmbracoVersion) in NumericValues(after[|before|..])
  {
    var row := MapProjectToSimpleDataIndexItem(project, indexType, projectVotes, files,
                 downloads, compatVersions, days, clean, strict).rowData;
    if CarriesVersions(fields, row) && ReadsThreePartText(tryParse) {
      VersionFieldsRoundTrip(project, indexType, projectVotes, files, downloads, compatVersions, days, clean, strict);
      DocumentWritingNumericVersions(fields, doc, strip, tryParse);
      var tokens := StrictVersions(files, strict);
      assert Tokens(fields, MinimumVersionStrictField) == tokens;
      forall i | 0 <= i < |strict(files)| && FitsInt32(strict(files)[i].minUmbracoVersion)
        ensures NumericalValue(strict(files)[i].minUmbracoVersion) in EncodedTokens(CollectVersions(fields), tryParse)
      {
        var v := strict(files)[i].minUmbracoVersion;
        var t := tokens[i];
        assert t == ToString3(v);
        assert tryParse(t) == Some(v);
        assert t in Tokens(fields, MinimumVersionStrictField);
        assert t in CollectVersions(fields);
      }
    }
  }
}

=== FILE: popularity.dfy ===
/** `ProjectPopularityPoints`: the ranking score of a project, a weighted
    sum of its download and vote totals, how recently it was updated and
    four yes/no signals. The source adds the weighted terms in C# `int`
    arithmetic, which wraps around silently; the model does the same and
    proves that the result is the plain weighted sum whenever that sum fits
    in 32 bits. */
module Popularity {

  import opened Timestamp

  const TWO_32: int := 0x1_0000_0000

  predicate IsInt32(x: int) {
    -0x8000_0000 <= x < 0x8000_0000
  }

  /** Unchecked 32-bit two's-complement reduction of an integer. */
  function Wrap32(x: int): (r: int)
    ensures IsInt32(r)
    ensures (x - r) % TWO_32 == 0
    ensures IsInt32(x) ==> r == x
  {
    var r := (x + 0x8000_0000) % TWO_32 - 0x8000_0000;
    if IsInt32(x) then
      ModUnique(x + 0x8000_0000, 0, x + 0x8000_0000);
      r
    else
      ModUnique(x + 0x8000_0000, (x + 0x8000_0000) / TWO_32, (x + 0x8000_0000) % TWO_32);
      r
  }

  /** A remainder modulo 2^32 is the unique one that rebuilds the dividend. */
  lemma ModUnique(n: int, q: int, r: int)
    requires 0 <= r < TWO_32 && n == q * TWO_32 + r
    ensures n % TWO_32 == r && n / TWO_32 == q
  {
  }

  /** Numbers that differ by a multiple of 2^32 wrap to the same value. */
  lemma {:induction false} Wrap32Congruent(x: int, y: int)
    requires (x - y) % TWO_32 == 0
    ensures Wrap32(x) == Wrap32(y)
  {
    var k := (x - y) / TWO_32;
    assert x - y == k * TWO_32;
    var a := y + 0x8000_0000;
    ModUnique(a + k * TWO_32, a / TWO_32 + k, a % TWO_32);
  }

  /** The inputs of one scoring call; the dates are kept as the source keeps
      them, and the time elapsed since the update is supplied separately. */
  datatype PopularityPoints = PopularityPoints(
    createDate: DateTime,
    updateDate: DateTime,
    worksOnCloud: bool,
    hasForum: bool,
    hasSourceCodeLink: bool,
    openForCollab: bool,
    downloads: int,
    votes: int)

  /** `GetUpdateDateScore`: a step function of the days elapsed since the
      last update, from 5 for a fresh project down to 0 for a stale one. The
      source reads the clock and takes the fractional day count; here that
      count is the `days` argument. */
  function UpdateDateScore(days: real): (r: int)
    ensures 0 <= r <= 5
    ensures days <= 30.0 ==> r == 5
    ensures days > 700.0 ==> r == 0
  {
    if days <= 30.0 then 5
    else if days <= 60.0 then 4
    else if days <= 120.0 then 3
    else if days <= 355.0 then 2
    else if days <= 700.0 then 1
    else 0
  }

  /** Freshness never goes up as the project ages. */
  lemma UpdateDateScoreMonotone(earlier: real, later: real)
    requires earlier <= later
    ensures UpdateDateScore(later) <= UpdateDateScore(earlier)
  {
  }

  function Flag(b: bool): int {
    if b then 1 else 0
  }

  /** The number of the four yes/no signals that are set. */
  function FlagCount(p: PopularityPoints): int {
    Flag(p.worksOnCloud) + Flag(p.hasForum) + Flag(p.hasSourceCodeLink) + Flag(p.openForCollab)
  }

  /** The weighted sum in unbounded arithmetic: downloads count once,
      votes and freshness a hundred times, each set signal five hundred. */
  function Score(p: PopularityPoints, days: real): int {
    p.downloads + 100 * p.votes + 100 * UpdateDateScore(days) + 500 * FlagCount(p)
  }

  /** The `(boost, value)` list `Calculate` folds over, in source order. */
  function Ranking(p: PopularityPoints, days: real): seq<(int, int)> {
    [ (1, p.downloads),
      (100, p.votes),
      (100, UpdateDateScore(days)),
      (500, Flag(p.worksOnCloud)),
      (500, Flag(p.hasForum)),
      (500, Flag(p.hasSourceCodeLink)),
      (500, Flag(p.openForCollab)) ]
  }

  function WeightedSum(ranking: seq<(int, int)>): int {
    if ranking == [] then 0 else ranking[0].0 * ranking[0].1 + WeightedSum(ranking[1..])
  }

  /** Wrapping the product and the running total at each step does not
      change the wrapped final sum. */
  lemma WrapStep(pop: int, exact: int, rest: int)
    ensures Wrap32(Wrap32(pop + Wrap32(exact)) + rest) == Wrap32(pop + exact + rest)
  {
    var product := Wrap32(exact);
    var next := Wrap32(pop + product);
    var k1, k2 := (exact - product) / TWO_32, (pop + product - next) / TWO_32;
    assert exact - product == k1 * TWO_32 && pop + product - next == k2 * TWO_32;
    assert (next + rest) - (pop + exact + rest) == -(k1 + k2) * TWO_32;
    Wrap32Congruent(next + rest, pop + exact + rest);
  }

  /** The `foreach` loop `pop += boost * value` over `ranking`, with both the
      product and the sum wrapping to 32 bits as C# `int` does. The running
      total is always the wrapped exact sum. */
  function Accumulate(ranking: seq<(int, int)>, pop: int): (r: int)
    requires IsInt32(pop)
    ensures IsInt32(r)
    ensures r == Wrap32(pop + WeightedSum(ranking))
  {
    if ranking == [] then
      pop
    else
      var exact := ranking[0].0 * ranking[0].1;
      var next := Wrap32(pop + Wrap32(exact));
      assert WeightedSum(ranking) == exact + WeightedSum(ranking[1..]);
      WrapStep(pop, exact, WeightedSum(ranking[1..]));
      Accumulate(ranking[1..], next)
  }

  /** `Calculate`: the popularity score as the source computes it, which is
      the weighted sum reduced to 32 bits, and exactly the weighted sum
      whenever that fits. */
  function Calculate(p: PopularityPoints, days: real): (r: int)
    ensures IsInt32(r)
    ensures r == Wrap32(Score(p, days))
    ensures IsInt32(Score(p, days)) ==> r == Score(p, days)
  {
    var ranking := Ranking(p, days);
    assert WeightedSum(ranking) == Score(p, days) by {
      assert WeightedSum(ranking[6..]) == 500 * Flag(p.openForCollab);
      assert WeightedSum(ranking[5..]) == 500 * (Flag(p.hasSourceCodeLink) + Flag(p.openForCollab));
      assert WeightedSum(ranking[4..]) == 500 * (Flag(p.hasForum) + Flag(p.hasSourceCodeLink) + Flag(p.openForCollab));
      assert WeightedSum(ranking[3..]) == 500 * FlagCount(p);
      assert WeightedSum(ranking[2..]) == 100 * UpdateDateScore(days) + 500 * FlagCount(p);
      assert WeightedSum(ranking[1..]) == 100 * p.votes + 100 * UpdateDateScore(days) + 500 * FlagCount(p);
    }
    Accumulate(ranking, 0)
  }

  /** Setting any one of the four signals, all else fixed, adds exactly 500
      to the score; an extra download adds 1 and an extra vote adds 100. */
  lemma ScoreIncrements(p: PopularityPoints, days: real)
    ensures !p.worksOnCloud ==> Score(p.(worksOnCloud := true), days) == Score(p, days) + 500
    ensures !p.hasForum ==> Score(p.(hasForum := true), days) == Score(p, days) + 500
    ensures !p.hasSourceCodeLink ==> Score(p.(hasSourceCodeLink := true), days) == Score(p, days) + 500
    ensures !p.openForCollab ==> Score(p.(openForCollab := true), days) == Score(p, days) + 500
    ensures Score(p.(downloads := p.downloads + 1), days) == Score(p, days) + 1
    ensures Score(p.(votes := p.votes + 1), days) == Score(p, days) + 100
  {
  }

  /** The same increments hold of the computed score as long as the larger
      score still fits in 32 bits. */
  lemma CalculateIncrements(p: PopularityPoints, q: PopularityPoints, days: real)
    requires q == p.(worksOnCloud := true) || q == p.(hasForum := true)
          || q == p.(hasSourceCodeLink := true) || q == p.(openForCollab := true)
    requires FlagCount(q) == FlagCount(p) + 1
    requires IsInt32(Score(p, days)) && IsInt32(Score(q, days))
    ensures Calculate(q, days) == Calculate(p, days) + 500
  {
  }

  /** Examples: a stale project with nothing scores 0, a fresh one
      scores 500 from freshness alone, and a fresh project with all four
      signals, 10 downloads and 3 votes scores 2810. */
  lemma CalculateExamples(created: DateTime, updated: DateTime)
    ensures Calculate(PopularityPoints(created, updated, false, false, false, false, 0, 0), 1000.0) == 0
    ensures Calculate(PopularityPoints(created, updated, false, false, false, false, 0, 0), 10.0) == 500
    ensures Calculate(PopularityPoints(created, updated, true, true, true, true, 10, 3), 0.0) == 2810
  {
  }
}

=== FILE: record_transformer.dfy ===
/** `MapProjectToSimpleDataIndexItem` and `GetAllData`: turning one project
    record, joined with its per-project statistics, into the flat
    field-name to field-value row handed to the index. The version cleaner
    `GetFromUmbracoString` and the strict-package classifier are supplied by
    the caller as functions; everything else is modelled here. */
module RecordTransformer {

  import opened Wrappers
  import opened Text
  import opened Timestamp
  import opened VersionCodec
  import opened Popularity

  /** A package file: its type tag ("package", "screenshot", ...), its path
      and the minimum Umbraco version it declares. */
  datatype WikiFile = WikiFile(fileType: string, path: string, minUmbracoVersion: Version)

  /** A child node of a project; only its visibility matters here. */
  datatype Child = Child(visible: bool)

  /** A published project node. The optional properties the source tests
      for (`defaultScreenshotPath`, `sourceUrl`, `compatibleVersions`) are
      `Option`s; the other string properties are plain strings. The boolean
      readings of properties are carried as the content store converts
      them. */
  datatype Project = Project(
    id: int,
    name: string,
    parentName: string,
    createDate: DateTime,
    updateDate: DateTime,
    url: string,
    description: string,
    packageGuid: string,
    worksOnUaaSText: string,
    worksOnUaaS: bool,
    projectLive: bool,
    approved: bool,
    sourceUrl: Option<string>,
    openForCollab: bool,
    compatibleVersions: Option<string>,
    defaultScreenshotPath: Option<string>,
    children: seq<Child>)

  predicate ValidProject(p: Project) {
    Valid(p.createDate) && Valid(p.updateDate)
  }

  /** The flat row of one project. The source fills a dictionary with these
      nineteen keys and no others, so the row is a record with one field per
      key. */
  datatype Row = Row(
    body: string,
    nodeName: string,
    categoryFolder: string,
    updateDate: string,
    createDate: string,
    nodeTypeAlias: string,
    url: string,
    uniqueId: string,
    worksOnUaaS: string,
    popularity: string,
    karma: string,
    downloads: string,
    image: string,
    packageFiles: string,
    projectLive: string,
    approved: string,
    versions: string,
    compatVersions: string,
    minimumVersionStrict: string)

  /** The row of one indexed node: its id, the index type and the fields. */
  datatype SimpleDataSet = SimpleDataSet(nodeId: int, nodeType: string, rowData: Row)

  /** The version cleaner `GetFromUmbracoString`: a canonical version text,
      or `None` where the source gets null. */
  type Cleaner = string -> Option<string>

  /** `PackageRepositoryService.GetAllStrictSupportedPackageVersions`. */
  type StrictClassifier = seq<WikiFile> -> seq<WikiFile>

  /** The cleaner never produces a token that a comma join would break. */
  ghost predicate CleanerWellBehaved(clean: Cleaner) {
    forall s :: clean(s).Some? ==> clean(s).value != "" && ',' !in clean(s).value
  }

  // ---------------------------------------------------------------------------
  // Image selection
  // ---------------------------------------------------------------------------

  /** `HasValue`: the property holds something other than white space. */
  predicate HasValue(s: Option<string>) {
    s.Some? && !IsBlank(s.value)
  }

  predicate IsScreenshot(f: WikiFile) {
    f.fileType == "screenshot"
  }

  /** `k` is the position of the first screenshot among `files`. */
  predicate FirstScreenshotAt(files: seq<WikiFile>, k: int) {
    && 0 <= k < |files|
    && IsScreenshot(files[k])
    && forall j :: 0 <= j < k ==> !IsScreenshot(files[j])
  }

  /** `files.FirstOrDefault(x => x.FileType == "screenshot")`. */
  function FirstScreenshot(files: seq<WikiFile>): (r: Option<WikiFile>)
    ensures r.None? <==> forall i :: 0 <= i < |files| ==> !IsScreenshot(files[i])
    ensures r.Some? ==> exists k :: FirstScreenshotAt(files, k) && files[k] == r.value
  {
    if files == [] then None
    else if IsScreenshot(files[0]) then
      assert FirstScreenshotAt(files, 0);
      Some(files[0])
    else
      var r := FirstScreenshot(files[1..]);
      if r.Some? then
        var k :| FirstScreenshotAt(files[1..], k) && files[1..][k] == r.value;
        assert FirstScreenshotAt(files, k + 1);
        r
      else
        r
  }

  /** The `image` field: a non-blank default screenshot path wins; failing
      that, the path of the first screenshot file; failing that, empty. */
  function SelectImage(defaultScreenshotPath: Option<string>, files: seq<WikiFile>): (r: string)
    ensures HasValue(defaultScreenshotPath) ==> r == defaultScreenshotPath.value
    ensures !HasValue(defaultScreenshotPath) && (exists i :: 0 <= i < |files| && IsScreenshot(files[i])) ==>
              exists k :: FirstScreenshotAt(files, k) && r == files[k].path
    ensures !HasValue(defaultScreenshotPath) && (forall i :: 0 <= i < |files| ==> !IsScreenshot(files[i])) ==>
              r == ""
  {
    var imageFile := if HasValue(defaultScreenshotPath) then defaultScreenshotPath.value else "";
    if IsBlank(imageFile) then
      match FirstScreenshot(files)
      case Some(image) => image.path
      case None => imageFile
    else
      imageFile
  }

  // ---------------------------------------------------------------------------
  // Package files
  // ---------------------------------------------------------------------------

  predicate IsPackage(f: WikiFile) {
    f.fileType == "package"
  }

  /** The positions of the package files. */
  function PackageIndices(files: seq<WikiFile>): set<nat> {
    set i: nat | i < |files| && IsPackage(files[i])
  }

  /** The last file adds its own position when it is a package. */
  lemma PackageIndicesLast(files: seq<WikiFile>)
    requires files != []
    ensures |PackageIndices(files)| ==
      |PackageIndices(files[..|files| - 1])| + (if IsPackage(files[|files| - 1]) then 1 else 0)
  {
    var init, last := files[..|files| - 1], |files| - 1;
    assert last !in PackageIndices(init);
    if IsPackage(files[last]) {
      assert PackageIndices(files) == PackageIndices(init) + {last};
    } else {
      assert PackageIndices(files) == PackageIndices(init);
    }
  }

  /** `files.Count(x => x.FileType == "package")`: how many files are
      packages. */
  function CountPackageFiles(files: seq<WikiFile>): (n: nat)
    ensures n == |PackageIndices(files)|
    ensures n <= |files|
  {
    if files == [] then
      assert PackageIndices(files) == {};
      0
    else
      PackageIndicesLast(files);
      CountPackageFiles(files[..|files| - 1]) + (if IsPackage(files[|files| - 1]) then 1 else 0)
  }

  // ---------------------------------------------------------------------------
  // Versions
  // ---------------------------------------------------------------------------

  /** `.Select(GetFromUmbracoString).Where(x => x != null)`: cleans each
      token and drops those the cleaner rejects. Every result comes from an
      accepted token and every accepted token contributes its result. */
  function CleanTokens(tokens: seq<string>, clean: Cleaner): (r: seq<string>)
    ensures |r| <= |tokens|
    ensures forall t :: t in r ==> exists u :: u in tokens && clean(u) == Some(t)
    ensures forall u :: u in tokens && clean(u).Some? ==> clean(u).value in r
  {
    if tokens == [] then []
    else
      var rest := CleanTokens(tokens[1..], clean);
      assert forall u :: u in tokens ==> u == tokens[0] || u in tokens[1..];
      match clean(tokens[0])
      case Some(t) => [t] + rest
      case None => rest
  }

  /** Cleaning keeps the relative order of the tokens: it works piecewise. */
  lemma {:induction false} CleanTokensConcat(a: seq<string>, b: seq<string>, clean: Cleaner)
    ensures CleanTokens(a + b, clean) == CleanTokens(a, clean) + CleanTokens(b, clean)
    decreases |a|
  {
    if a == [] {
      assert a + b == b;
    } else {
      assert (a + b)[0] == a[0];
      assert (a + b)[1..] == a[1..] + b;
      CleanTokensConcat(a[1..], b, clean);
    }
  }

  /** With a well-behaved cleaner every cleaned token can be comma-joined. */
  lemma CleanTokensJoinable(tokens: seq<string>, clean: Cleaner)
    requires CleanerWellBehaved(clean)
    ensures Joinable(CleanTokens(tokens, clean), ',')
  {
    var r := CleanTokens(tokens, clean);
    forall i | 0 <= i < |r| ensures r[i] != "" && ',' !in r[i] {
      assert r[i] in r;
      var u :| u in tokens && clean(u) == Some(r[i]);
    }
  }

  predicate IsComma(c: char) {
    c == ','
  }

  /** The `compatibleVersions` property, lower-cased, stripped of leading
      and trailing commas, split on commas (empty pieces included) and
      cleaned. A missing property reads as the empty string. */
  function CleanVersionProperty(compatibleVersions: Option<string>, clean: Cleaner): (r: seq<string>)
    ensures forall t :: t in r ==>
      exists u :: u in Split(TrimBy(ToLower(compatibleVersions.GetOr("")), IsComma), ',') && clean(u) == Some(t)
    ensures forall u :: u in Split(TrimBy(ToLower(compatibleVersions.GetOr("")), IsComma), ',') && clean(u).Some? ==>
      clean(u).value in r
  {
    var version := compatibleVersions.GetOr("");
    CleanTokens(Split(TrimBy(ToLower(version), IsComma), ','), clean)
  }

  /** `strictPackageFiles.Select(x => x.MinUmbracoVersion.ToString(3))`: one
      three-part version text per strict file, in order, each reading back
      as that file's minimum version. */
  function StrictVersions(files: seq<WikiFile>, strict: StrictClassifier): (r: seq<string>)
    ensures |r| == |strict(files)|
    ensures forall i :: 0 <= i < |r| ==> ParseVersion3(r[i]) == Some(strict(files)[i].minUmbracoVersion)
    ensures Joinable(r, ',')
  {
    var strictFiles := strict(files);
    seq(|strictFiles|, i requires 0 <= i < |strictFiles| => ToString3(strictFiles[i].minUmbracoVersion))
  }

  // ---------------------------------------------------------------------------
  // The row
  // ---------------------------------------------------------------------------

  /** A project has a forum when it has a visible child node. */
  predicate HasForum(children: seq<Child>) {
    exists i :: 0 <= i < |children| && children[i].visible
  }

  /** The popularity inputs drawn from a project and its totals: the
      project has a forum when some child is visible, and a source code link
      when `sourceUrl` holds a character other than white space. */
  function PointsOf(project: Project, votes: int, downloads: int): (r: PopularityPoints)
    ensures r.createDate == project.createDate && r.updateDate == project.updateDate
    ensures r.worksOnCloud == project.worksOnUaaS && r.openForCollab == project.openForCollab
    ensures r.hasForum <==> exists i :: 0 <= i < |project.children| && project.children[i].visible
    ensures r.hasSourceCodeLink <==>
      project.sourceUrl.Some? && exists i :: 0 <= i < |project.sourceUrl.value| && !IsWhiteSpace(project.sourceUrl.value[i])
    ensures r.downloads == downloads && r.votes == votes
  {
    PopularityPoints(project.createDate, project.updateDate,
      project.worksOnUaaS, HasForum(project.children),
      !IsNullOrBlank(project.sourceUrl), project.openForCollab,
      downloads, votes)
  }

  function BoolText(b: bool): (r: string)
    ensures r == "1" || r == "0"
    ensures r == "1" <==> b
  {
    if b then "1" else "0"
  }

  /** `MapProjectToSimpleDataIndexItem`: the row of one project. It carries
      exactly the nineteen fields; numbers are written so that they read
      back as the popularity score, the vote and download totals and the
      number of package files; the flags are "1" or "0" as the project is
      live or approved; the version fields are the comma joins of the
      cleaned tokens. `days` is the time elapsed since the update. */
  function MapProjectToSimpleDataIndexItem(
    project: Project, indexType: string, projectVotes: int, files: seq<WikiFile>,
    downloads: int, compatVersions: seq<string>, days: real,
    clean: Cleaner, strict: StrictClassifier): (r: SimpleDataSet)
    requires ValidProject(project)
    ensures r.nodeId == project.id && r.nodeType == indexType
    ensures r.rowData.body == project.description
    ensures r.rowData.nodeName == project.name
    ensures r.rowData.url == project.url
    ensures r.rowData.uniqueId == project.packageGuid
    ensures r.rowData.worksOnUaaS == project.worksOnUaaSText
    ensures r.rowData.nodeTypeAlias == "project"
    ensures r.rowData.categoryFolder == Trim(ToLower(project.parentName))
    ensures r.rowData.updateDate == Format(project.updateDate)
    ensures r.rowData.createDate == Format(project.createDate)
    ensures IsIntText(r.rowData.popularity)
    ensures ParseInt(r.rowData.popularity) == Calculate(PointsOf(project, projectVotes, downloads), days)
    ensures IsIntText(r.rowData.karma) && ParseInt(r.rowData.karma) == projectVotes
    ensures IsIntText(r.rowData.downloads) && ParseInt(r.rowData.downloads) == downloads
    ensures r.rowData.image == SelectImage(project.defaultScreenshotPath, files)
    ensures IsIntText(r.rowData.packageFiles)
    ensures ParseInt(r.rowData.packageFiles) == |PackageIndices(files)|
    ensures r.rowData.projectLive == "1" || r.rowData.projectLive == "0"
    ensures r.rowData.projectLive == "1" <==> project.projectLive
    ensures r.rowData.approved == "1" || r.rowData.approved == "0"
    ensures r.rowData.approved == "1" <==> project.approved
    ensures r.rowData.versions == Join(CleanVersionProperty(project.compatibleVersions, clean), ',')
    ensures r.rowData.compatVersions == Join(CleanTokens(compatVersions, clean), ',')
    ensures r.rowData.minimumVersionStrict == Join(StrictVersions(files, strict), ',')
  {
    var pop := Calculate(PointsOf(project, projectVotes, downloads), days);
    var row := Row(
      project.description,
      project.name,
      Trim(ToLower(project.parentName)),
      Format(project.updateDate),
      Format(project.createDate),
      "project",
      project.url,
      project.packageGuid,
      project.worksOnUaaSText,
      IntToString(pop),
      IntToString(projectVotes),
      IntToString(downloads),
      SelectImage(project.defaultScreenshotPath, files),
      IntToString(CountPackageFiles(files)),
      BoolText(project.projectLive),
      BoolText(project.approved),
      Join(CleanVersionProperty(project.compatibleVersions, clean), ','),
      Join(CleanTokens(compatVersions, clean), ','),
      Join(StrictVersions(files, strict), ','));
    SimpleDataSet(project.id, indexType, row)
  }

  /** The category is stored lower-case with no white space at either end. */
  lemma CategoryFolderNormalised(parentName: string)
    ensures var c := Trim(ToLower(parentName));
      && (forall i :: 0 <= i < |c| ==> !IsUpperAscii(c[i]))
      && (c == [] || (!IsWhiteSpace(c[0]) && !IsWhiteSpace(c[|c| - 1])))
  {
    var lower := ToLower(parentName);
    var c := Trim(lower);
    var k :| TrimmedAt(lower, k, c, IsWhiteSpace);
    forall i | 0 <= i < |c| ensures !IsUpperAscii(c[i]) {
      assert c[i] == lower[k + i];
    }
  }

  /** The three version fields split back into exactly the tokens that were
      joined: the cleaned property tokens, the cleaned compatibility tokens
      and the strict files' minimum versions, in order, none of them a token
      the cleaner rejected. */
  lemma VersionFieldsRoundTrip(
    project: Project, indexType: string, projectVotes: int, files: seq<WikiFile>,
    downloads: int, compatVersions: seq<string>, days: real,
    clean: Cleaner, strict: StrictClassifier)
    requires ValidProject(project)
    requires CleanerWellBehaved(clean)
    ensures var row := MapProjectToSimpleDataIndexItem(project, indexType, projectVotes, files,
                          downloads, compatVersions, days, clean, strict).rowData;
      && SplitNonEmpty(row.versions, ',') == CleanVersionProperty(project.compatibleVersions, clean)
      && SplitNonEmpty(row.compatVersions, ',') == CleanTokens(compatVersions, clean)
      && SplitNonEmpty(row.minimumVersionStrict, ',') == StrictVersions(files, strict)
  {
    var version := project.compatibleVersions.GetOr("");
    CleanTokensJoinable(Split(TrimBy(ToLower(version), IsComma), ','), clean);
    JoinSplitNonEmptyRoundTrip(CleanVersionProperty(project.compatibleVersions, clean), ',');
    CleanTokensJoinable(compatVersions, clean);
    JoinSplitNonEmptyRoundTrip(CleanTokens(compatVersions, clean), ',');
    JoinSplitNonEmptyRoundTrip(StrictVersions(files, strict), ',');
  }

  // ---------------------------------------------------------------------------
  // The feed
  // ---------------------------------------------------------------------------

  /** A per-project total from a statistics map, or `default` when the
      project has no entry. */
  function Lookup<V>(m: map<int, V>, id: int, default: V): (v: V)
    ensures id in m ==> v == m[id]
    ensures id !in m ==> v == default
  {
    if id in m then m[id] else default
  }

  /** The per-project totals `GetAllData` gathers before its loop, each a
      map from project id. */
  datatype Statistics = Statistics(
    karma: map<int, int>,
    wikiFiles: map<int, seq<WikiFile>>,
    downloads: map<int, int>,
    compatVersions: map<int, seq<string>>)

  /** The row `GetAllData` yields for one project, with its statistics
      looked up by id. A project missing from a statistics map is indexed
      with zero votes, zero downloads, no files or no declared compatible
      versions, never an error. `daysSince` stands for the clock. */
  function RowFor(
    project: Project, indexType: string, stats: Statistics,
    daysSince: DateTime -> real, clean: Cleaner, strict: StrictClassifier): (r: SimpleDataSet)
    requires ValidProject(project)
    ensures r.nodeId == project.id && r.nodeType == indexType
    ensures IsIntText(r.rowData.karma) && IsIntText(r.rowData.downloads) && IsIntText(r.rowData.packageFiles)
    ensures ParseInt(r.rowData.karma) == Lookup(stats.karma, project.id, 0)
    ensures ParseInt(r.rowData.downloads) == Lookup(stats.downloads, project.id, 0)
    ensures ParseInt(r.rowData.packageFiles) == |PackageIndices(Lookup(stats.wikiFiles, project.id, []))|
    ensures r.rowData.image == SelectImage(project.defaultScreenshotPath, Lookup(stats.wikiFiles, project.id, []))
    ensures r.rowData.minimumVersionStrict == Join(StrictVersions(Lookup(stats.wikiFiles, project.id, []), strict), ',')
    ensures r.rowData.compatVersions == Join(CleanTokens(Lookup(stats.compatVersions, project.id, []), clean), ',')
    ensures project.id !in stats.wikiFiles ==> ParseInt(r.rowData.packageFiles) == 0
    ensures project.id !in stats.compatVersions ==> r.rowData.compatVersions == ""
    ensures IsIntText(r.rowData.popularity)
    ensures ParseInt(r.rowData.popularity) == Calculate(
      PointsOf(project, Lookup(stats.karma, project.id, 0), Lookup(stats.downloads, project.id, 0)),
      daysSince(project.updateDate))
  {
    var files := Lookup(stats.wikiFiles, project.id, []);
    assert project.id !in stats.wikiFiles ==> PackageIndices(files) == {};
    MapProjectToSimpleDataIndexItem(project, indexType,
      Lookup(stats.karma, project.id, 0), files,
      Lookup(stats.downloads, project.id, 0), Lookup(stats.compatVersions, project.id, []),
      daysSince(project.updateDate), clean, strict)
  }

  /** `GetAllData`: one row per project of the feed, in feed order. Vote and
      download totals are the project's entries in the statistics maps, or
      zero when it has none; a project without files or declared versions
      gets no package files and an empty compatibility field. */
  function GetAllData(
    projects: seq<Project>, indexType: string, stats: Statistics,
    daysSince: DateTime -> real, clean: Cleaner, strict: StrictClassifier): (rows: seq<SimpleDataSet>)
    requires forall i :: 0 <= i < |projects| ==> ValidProject(projects[i])
    ensures |rows| == |projects|
    ensures forall i :: 0 <= i < |projects| ==> rows[i].nodeId == projects[i].id && rows[i].nodeType == indexType
    ensures forall i :: 0 <= i < |projects| ==>
      var row, id := rows[i].rowData, projects[i].id;
      && IsIntText(row.karma) && IsIntText(row.downloads) && IsIntText(row.packageFiles)
      && ParseInt(row.karma) == Lookup(stats.karma, id, 0)
      && ParseInt(row.downloads) == Lookup(stats.downloads, id, 0)
      && (id !in stats.wikiFiles ==> ParseInt(row.packageFiles) == 0)
      && (id !in stats.compatVersions ==> row.compatVersions == "")
    ensures forall i :: 0 <= i < |projects| ==> rows[i] == RowFor(projects[i], indexType, stats, daysSince, clean, strict)
  {
    seq(|projects|, i requires 0 <= i < |projects| => RowFor(projects[i], indexType, stats, daysSince, clean, strict))
  }
}

=== FILE: text.dfy ===
/** The .NET string primitives the indexer relies on: `Char.IsWhiteSpace`,
    `string.IsNullOrWhiteSpace`, `Trim`, `ToLowerInvariant`, `Split`,
    `string.Join` and the decimal rendering of `int.ToString()`.
    Each operation is paired with the property that pins it down: trimming
    is characterised by what it removes, splitting by the join it inverts,
    decimal rendering by the parse that reads it back. */
module Text {

  import opened Wrappers

  // ---------------------------------------------------------------------------
  // Whitespace and trimming
  // ---------------------------------------------------------------------------

  /** `Char.IsWhiteSpace`: the Unicode space, line and paragraph separators
      plus the control characters U+0009..U+000D, U+0085 and U+00A0. */
  predicate IsWhiteSpace(c: char) {
    || c == ' '
    || ('\t' <= c <= '\r')
    || c == '\U{85}' || c == '\U{A0}' || c == '\U{1680}'
    || ('\U{2000}' <= c <= '\U{200A}')
    || c == '\U{2028}' || c == '\U{2029}' || c == '\U{202F}'
    || c == '\U{205F}' || c == '\U{3000}'
  }

  /** `string.IsNullOrWhiteSpace` on a non-null string. */
  predicate IsBlank(s: string) {
    forall i :: 0 <= i < |s| ==> IsWhiteSpace(s[i])
  }

  /** `string.IsNullOrWhiteSpace` on a string that may be null. */
  predicate IsNullOrBlank(s: Option<string>) {
    s.None? || IsBlank(s.value)
  }

  /** The first position at or after `from` whose character is kept, or
      `|s|` when every character from `from` on is dropped. */
  function LeadingEnd(s: string, drop: char -> bool, from: nat): (k: nat)
    requires from <= |s|
    ensures from <= k <= |s|
    ensures forall i :: from <= i < k ==> drop(s[i])
    ensures k < |s| ==> !drop(s[k])
    decreases |s| - from
  {
    if from < |s| && drop(s[from]) then LeadingEnd(s, drop, from + 1) else from
  }

  /** The position just past the last kept character in `s[lo..upto]`, or
      `lo` when every character there is dropped. */
  function TrailingStart(s: string, drop: char -> bool, lo: nat, upto: nat): (e: nat)
    requires lo <= upto <= |s|
    ensures lo <= e <= upto
    ensures forall i :: e <= i < upto ==> drop(s[i])
    ensures e > lo ==> !drop(s[e - 1])
    decreases upto
  {
    if upto > lo && drop(s[upto - 1]) then TrailingStart(s, drop, lo, upto - 1) else upto
  }

  /** `r` is the slice of `s` starting at `k`, and everything of `s` outside
      that slice satisfies `drop`. */
  predicate TrimmedAt(s: string, k: int, r: string, drop: char -> bool) {
    && 0 <= k <= k + |r| <= |s|
    && r == s[k..k + |r|]
    && (forall i :: 0 <= i < k ==> drop(s[i]))
    && (forall i :: k + |r| <= i < |s| ==> drop(s[i]))
  }

  /** `Trim(chars)`: strips `drop` characters from both ends. The result is
      the longest slice of `s` that neither starts nor ends with one. */
  function TrimBy(s: string, drop: char -> bool): (r: string)
    ensures exists k :: TrimmedAt(s, k, r, drop)
    ensures r == [] || (!drop(r[0]) && !drop(r[|r| - 1]))
  {
    var k := LeadingEnd(s, drop, 0);
    var e := TrailingStart(s, drop, k, |s|);
    assert TrimmedAt(s, k, s[k..e], drop);
    s[k..e]
  }

  /** `string.Trim()`: strips white space from both ends. */
  function Trim(s: string): (r: string)
    ensures exists k :: TrimmedAt(s, k, r, IsWhiteSpace)
    ensures r == [] || (!IsWhiteSpace(r[0]) && !IsWhiteSpace(r[|r| - 1]))
  {
    TrimBy(s, IsWhiteSpace)
  }

  /** A trimmed string is empty exactly when the input was blank. */
  lemma TrimEmptyIffBlank(s: string)
    ensures Trim(s) == [] <==> IsBlank(s)
    ensures IsBlank(Trim(s)) <==> Trim(s) == []
  {
    var r := Trim(s);
    var k :| TrimmedAt(s, k, r, IsWhiteSpace);
    if r == [] {
      forall i | 0 <= i < |s| ensures IsWhiteSpace(s[i]) {
        if i >= k { assert k + |r| <= i; }
      }
    } else {
      assert s[k] == r[0];
    }
  }

  // ---------------------------------------------------------------------------
  // Case mapping
  // ---------------------------------------------------------------------------

  predicate IsUpperAscii(c: char) {
    'A' <= c <= 'Z'
  }

  function ToLowerChar(c: char): char {
    if IsUpperAscii(c) then (c as int + 32) as char else c
  }

  /** `ToLowerInvariant`, restricted to the ASCII letters. */
  function ToLower(s: string): (r: string)
    ensures |r| == |s|
    ensures forall i :: 0 <= i < |r| ==> !IsUpperAscii(r[i])
    ensures forall i :: 0 <= i < |s| && !IsUpperAscii(s[i]) ==> r[i] == s[i]
    ensures forall i :: 0 <= i < |s| && IsUpperAscii(s[i]) ==> r[i] as int == s[i] as int + 32
  {
    seq(|s|, i requires 0 <= i < |s| => ToLowerChar(s[i]))
  }

  // ---------------------------------------------------------------------------
  // Splitting and joining
  // ---------------------------------------------------------------------------

  /** `string.Join(sep, ts)`. */
  function Join(ts: seq<string>, sep: char): string
  {
    if |ts| == 0 then ""
    else if |ts| == 1 then ts[0]
    else ts[0] + [sep] + Join(ts[1..], sep)
  }

  /** `s.Split(sep)` with the default options: every piece is kept, empty
      ones included, so there is always at least one. Splitting is the
      inverse of joining: the pieces contain no separator and joining them
      back gives `s`. */
  function Split(s: string, sep: char): (r: seq<string>)
    ensures |r| >= 1
    ensures forall i :: 0 <= i < |r| ==> sep !in r[i]
    ensures Join(r, sep) == s
  {
    if s == [] then [""]
    else
      var rest := Split(s[1..], sep);
      if s[0] == sep then
        assert ([""] + rest)[1..] == rest;
        [""] + rest
      else
        var r := [[s[0]] + rest[0]] + rest[1..];
        assert r[1..] == rest[1..];
        assert s == [s[0]] + s[1..];
        r
  }

  /** Drops the empty strings, keeping the others in order. */
  function RemoveEmpty(ts: seq<string>): (r: seq<string>)
    ensures |r| <= |ts|
    ensures forall i :: 0 <= i < |r| ==> r[i] != ""
    ensures forall t :: t in r <==> t in ts && t != ""
  {
    if ts == [] then []
    else if ts[0] == "" then RemoveEmpty(ts[1..])
    else [ts[0]] + RemoveEmpty(ts[1..])
  }

  /** Dropping empty strings works piecewise, so it keeps the order of the
      strings it keeps. */
  lemma {:induction false} RemoveEmptyConcat(a: seq<string>, b: seq<string>)
    ensures RemoveEmpty(a + b) == RemoveEmpty(a) + RemoveEmpty(b)
    decreases |a|
  {
    if a == [] {
      assert a + b == b;
    } else {
      assert (a + b)[0] == a[0];
      assert (a + b)[1..] == a[1..] + b;
      RemoveEmptyConcat(a[1..], b);
    }
  }

  /** `s.Split(new[] { sep }, StringSplitOptions.RemoveEmptyEntries)`: the
      pieces between separators that are not empty. */
  function SplitNonEmpty(s: string, sep: char): (r: seq<string>)
    ensures forall i :: 0 <= i < |r| ==> r[i] != "" && sep !in r[i]
    ensures forall t :: t in r <==> t != "" && t in Split(s, sep)
  {
    var pieces := Split(s, sep);
    var r := RemoveEmpty(pieces);
    assert forall i :: 0 <= i < |r| ==> r[i] in pieces;
    r
  }

  /** A list of tokens that survives a join followed by a split. */
  predicate Joinable(ts: seq<string>, sep: char) {
    forall i :: 0 <= i < |ts| ==> ts[i] != "" && sep !in ts[i]
  }

  lemma {:induction false} SplitWithoutSeparator(x: string, sep: char)
    requires sep !in x
    ensures Split(x, sep) == [x]
    decreases |x|
  {
    if x != [] {
      SplitWithoutSeparator(x[1..], sep);
      assert [x[0]] + x[1..] == x;
    }
  }

  lemma {:induction false} SplitAfterSeparator(x: string, y: string, sep: char)
    requires sep !in x
    ensures Split(x + [sep] + y, sep) == [x] + Split(y, sep)
    decreases |x|
  {
    var s := x + [sep] + y;
    if x == [] {
      assert s[1..] == y;
    } else {
      assert s[1..] == x[1..] + [sep] + y;
      SplitAfterSeparator(x[1..], y, sep);
      assert [x[0]] + x[1..] == x;
    }
  }

  /** Splitting at one separator splits the two sides independently. */
  lemma {:induction false} SplitConcat(a: string, b: string, sep: char)
    ensures Split(a + [sep] + b, sep) == Split(a, sep) + Split(b, sep)
    decreases |a|
  {
    var s := a + [sep] + b;
    if a == [] {
      assert s[1..] == b;
    } else {
      assert s[0] == a[0];
      assert s[1..] == a[1..] + [sep] + b;
      SplitConcat(a[1..], b, sep);
      var front := Split(a[1..], sep);
      var rest := front + Split(b, sep);
      if a[0] == sep {
        assert Split(s, sep) == [""] + rest;
        assert Split(a, sep) == [""] + front;
      } else {
        assert rest[0] == front[0];
        assert rest[1..] == front[1..] + Split(b, sep);
        assert Split(s, sep) == [[a[0]] + front[0]] + (front[1..] + Split(b, sep));
        assert Split(a, sep) == [[a[0]] + front[0]] + front[1..];
      }
    }
  }

  /** A text without the separator is one piece, or none when it is empty. */
  lemma SplitNonEmptyWithoutSeparator(s: string, sep: char)
    requires sep !in s
    ensures SplitNonEmpty(s, sep) == if s == "" then [] else [s]
  {
    SplitWithoutSeparator(s, sep);
  }

  /** Splitting with empty entries removed, at one separator, is the pieces
      of the left side followed by those of the right side: the pieces come
      in the order they appear. */
  lemma SplitNonEmptyConcat(a: string, b: string, sep: char)
    ensures SplitNonEmpty(a + [sep] + b, sep) == SplitNonEmpty(a, sep) + SplitNonEmpty(b, sep)
  {
    SplitConcat(a, b, sep);
    RemoveEmptyConcat(Split(a, sep), Split(b, sep));
  }

  /** Splitting a join of separator-free pieces gives the pieces back. */
  lemma {:induction false} SplitJoin(ts: seq<string>, sep: char)
    requires |ts| >= 1
    requires forall i :: 0 <= i < |ts| ==> sep !in ts[i]
    ensures Split(Join(ts, sep), sep) == ts
    decreases |ts|
  {
    if |ts| == 1 {
      SplitWithoutSeparator(ts[0], sep);
    } else {
      SplitJoin(ts[1..], sep);
      SplitAfterSeparator(ts[0], Join(ts[1..], sep), sep);
      assert [ts[0]] + ts[1..] == ts;
    }
  }

  lemma {:induction false} RemoveEmptyKeepsNonEmpty(ts: seq<string>)
    requires forall i :: 0 <= i < |ts| ==> ts[i] != ""
    ensures RemoveEmpty(ts) == ts
    decreases |ts|
  {
    if ts != [] {
      RemoveEmptyKeepsNonEmpty(ts[1..]);
      assert [ts[0]] + ts[1..] == ts;
    }
  }

  /** Join with `sep`, then split on `sep` dropping empty entries: the
      round trip is the identity on non-empty, separator-free tokens. */
  lemma JoinSplitNonEmptyRoundTrip(ts: seq<string>, sep: char)
    requires Joinable(ts, sep)
    ensures SplitNonEmpty(Join(ts, sep), sep) == ts
  {
    if ts == [] {
      assert Split("", sep) == [""];
    } else {
      SplitJoin(ts, sep);
      RemoveEmptyKeepsNonEmpty(ts);
    }
  }

  // ---------------------------------------------------------------------------
  // Decimal numbers
  // ---------------------------------------------------------------------------

  predicate IsDigit(c: char) {
    '0' <= c <= '9'
  }

  predicate IsDigits(s: string) {
    forall i :: 0 <= i < |s| ==> IsDigit(s[i])
  }

  function DigitValue(c: char): nat
    requires IsDigit(c)
  {
    c as int - '0' as int
  }

  function DigitChar(d: nat): (c: char)
    requires d < 10
    ensures IsDigit(c) && DigitValue(c) == d
  {
    ('0' as int + d) as char
  }

  /** Reads a string of decimal digits, most significant first. */
  function ParseNat(s: string): nat
    requires IsDigits(s)
    decreases |s|
  {
    if s == [] then 0 else ParseNat(s[..|s| - 1]) * 10 + DigitValue(s[|s| - 1])
  }

  /** Decimal rendering of a non-negative number: digits only, no leading
      zero, and it reads back as the number. */
  /** Decimal text without a leading zero, as .NET writes numbers. */
  predicate NoLeadingZero(s: string) {
    |s| > 1 ==> s[0] != '0'
  }

  function NatToString(n: nat): (r: string)
    ensures r != [] && IsDigits(r)
    ensures |r| > 1 ==> r[0] != '0'
    ensures r[0] == '0' <==> n == 0
    ensures ParseNat(r) == n
  {
    if n < 10 then
      [DigitChar(n)]
    else
      var prefix := NatToString(n / 10);
      var r := prefix + [DigitChar(n % 10)];
      assert r[..|r| - 1] == prefix;
      r
  }

  /** A `-` sign followed by digits, or digits alone. */
  predicate IsIntText(s: string) {
    && s != []
    && (if s[0] == '-' then |s| > 1 && IsDigits(s[1..]) else IsDigits(s))
  }

  function ParseInt(s: string): int
    requires IsIntText(s)
  {
    if s[0] == '-' then -(ParseNat(s[1..]) as int) else ParseNat(s)
  }

  /** `int.ToString()` under the invariant culture. */
  function IntToString(i: int): (r: string)
    ensures IsIntText(r) && ParseInt(r) == i
    ensures r[0] == '-' ==> i < 0 && r[1] != '0'
    ensures r[0] != '-' ==> NoLeadingZero(r)
  {
    if i < 0 then
      var r := "-" + NatToString(-i);
      assert r[1..] == NatToString(-i);
      r
    else NatToString(i)
  }

  /** Distinct numbers render as distinct strings. */
  lemma IntToStringInjective(i: int, j: int)
    requires IntToString(i) == IntToString(j)
    ensures i == j
  {
    assert ParseInt(IntToString(i)) == ParseInt(IntToString(j));
  }

  lemma {:induction false} ParseZeros(z: string)
    requires forall i :: 0 <= i < |z| ==> z[i] == '0'
    ensures IsDigits(z) && ParseNat(z) == 0
    decreases |z|
  {
    if z != [] {
      ParseZeros(z[..|z| - 1]);
    }
  }

  /** Leading zeros do not change the value read. */
  lemma {:induction false} ParseIgnoresLeadingZeros(z: string, s: string)
    requires forall i :: 0 <= i < |z| ==> z[i] == '0'
    requires IsDigits(s)
    ensures IsDigits(z + s) && ParseNat(z + s) == ParseNat(s)
    decreases |s|
  {
    ParseZeros(z);
    if s == [] {
      assert z + s == z;
    } else {
      var t := z + s;
      assert t[..|t| - 1] == z + s[..|s| - 1];
      ParseIgnoresLeadingZeros(z, s[..|s| - 1]);
    }
  }

  /** A custom numeric format of `width` zero-padded digits (`yyyy`, `MM`, ...). */
  function PadDigits(n: nat, width: nat): (r: string)
    ensures IsDigits(r) && ParseNat(r) == n
    ensures |r| >= width
    ensures |NatToString(n)| <= width ==> |r| == width
  {
    var digits := NatToString(n);
    if |digits| >= width then digits
    else
      var zeros := seq(width - |digits|, _ => '0');
      ParseIgnoresLeadingZeros(zeros, digits);
      zeros + digits
  }

  /** Numbers below `10^w` need at most `w` digits. */
  lemma {:induction false} NatToStringLength(n: nat, w: nat)
    requires w >= 1 && n < Pow10(w)
    ensures |NatToString(n)| <= w
    decreases w
  {
    if n >= 10 {
      assert w >= 2;
      assert n / 10 < Pow10(w - 1);
      NatToStringLength(n / 10, w - 1);
    }
  }

  function Pow10(w: nat): (r: nat)
    ensures r >= 1
  {
    if w == 0 then 1 else 10 * Pow10(w - 1)
  }
}

=== FILE: timestamp.dfy ===
/** Calendar timestamps and their `yyyy-MM-dd HH:mm:ss` rendering, the
    format in which the index row stores a project's create and update
    dates. */
module Timestamp {

  import opened Text

  /** A `DateTime` reduced to the components the format shows. */
  datatype DateTime = DateTime(year: nat, month: nat, day: nat, hour: nat, minute: nat, second: nat)

  predicate IsLeapYear(y: nat) {
    (y % 4 == 0 && y % 100 != 0) || y % 400 == 0
  }

  function DaysInMonth(y: nat, m: nat): nat
    requires 1 <= m <= 12
  {
    if m == 2 then (if IsLeapYear(y) then 29 else 28)
    else if m == 4 || m == 6 || m == 9 || m == 11 then 30
    else 31
  }

  /** The range a .NET `DateTime` can hold, to the second. */
  predicate Valid(t: DateTime) {
    && 1 <= t.year <= 9999
    && 1 <= t.month <= 12
    && 1 <= t.day <= DaysInMonth(t.year, t.month)
    && t.hour < 24 && t.minute < 60 && t.second < 60
  }

  /** Two zero-padded digits for a component below 100. */
  function TwoDigits(n: nat): (r: string)
    requires n < 100
    ensures |r| == 2 && IsDigits(r) && ParseNat(r) == n
  {
    NatToStringLength(n, 2);
    PadDigits(n, 2)
  }

  /** The six digit groups with their separators. */
  function Compose(year: string, month: string, day: string, hour: string, minute: string, second: string): string {
    year + "-" + month + "-" + day + " " + hour + ":" + minute + ":" + second
  }

  /** Where the groups and separators of `Compose` sit. */
  lemma ComposeLayout(year: string, month: string, day: string, hour: string, minute: string, second: string)
    requires |year| == 4 && |month| == 2 && |day| == 2 && |hour| == 2 && |minute| == 2 && |second| == 2
    ensures var r := Compose(year, month, day, hour, minute, second);
      && |r| == 19
      && r[4] == '-' && r[7] == '-' && r[10] == ' ' && r[13] == ':' && r[16] == ':'
      && r[0..4] == year && r[5..7] == month && r[8..10] == day
      && r[11..13] == hour && r[14..16] == minute && r[17..19] == second
  {
    var r := Compose(year, month, day, hour, minute, second);
    var date := year + "-" + month + "-" + day;
    var time := hour + ":" + minute + ":" + second;
    assert r == date + " " + time;
    assert r[..10] == date && r[11..] == time;
    assert date[0..4] == year && date[5..7] == month && date[8..10] == day;
    assert time[0..2] == hour && time[3..5] == minute && time[6..8] == second;
  }

  /** `t.ToString("yyyy-MM-dd HH:mm:ss")`: nineteen characters with the
      separators at fixed places, and every component reads back from its
      own digit group. */
  function Format(t: DateTime): (r: string)
    requires Valid(t)
    ensures |r| == 19
    ensures r[4] == '-' && r[7] == '-' && r[10] == ' ' && r[13] == ':' && r[16] == ':'
    ensures IsDigits(r[0..4]) && ParseNat(r[0..4]) == t.year
    ensures IsDigits(r[5..7]) && ParseNat(r[5..7]) == t.month
    ensures IsDigits(r[8..10]) && ParseNat(r[8..10]) == t.day
    ensures IsDigits(r[11..13]) && ParseNat(r[11..13]) == t.hour
    ensures IsDigits(r[14..16]) && ParseNat(r[14..16]) == t.minute
    ensures IsDigits(r[17..19]) && ParseNat(r[17..19]) == t.second
  {
    NatToStringLength(t.year, 4);
    var year := PadDigits(t.year, 4);
    var month, day := TwoDigits(t.month), TwoDigits(t.day);
    var hour, minute, second := TwoDigits(t.hour), TwoDigits(t.minute), TwoDigits(t.second);
    ComposeLayout(year, month, day, hour, minute, second);
    Compose(year, month, day, hour, minute, second)
  }

  /** The rendering loses nothing: distinct timestamps render differently. */
  lemma FormatInjective(a: DateTime, b: DateTime)
    requires Valid(a) && Valid(b)
    requires Format(a) == Format(b)
    ensures a == b
  {
  }
}

=== FILE: version_codec.dfy ===
/** Package versions as the index sees them: the three-part rendering
    `Version.ToString(3)` used for `minimumVersionStrict`, and the numeric
    encoding `GetNumericalValue` that packs a version into one sortable
    integer for range queries on `num_version`. */
module VersionCodec {

  import opened Wrappers
  import opened Text

  /** A `System.Version` with its major, minor and build components. */
  datatype Version = Version(major: nat, minor: nat, build: nat)

  /** Each component fits the three decimal digits the encoding gives it. */
  predicate InRange(v: Version) {
    v.major < 1000 && v.minor < 1000 && v.build < 1000
  }

  /** Each component fits a C# `int`, as in every `System.Version`. */
  predicate FitsInt32(v: Version) {
    v.major <= 0x7FFF_FFFF && v.minor <= 0x7FFF_FFFF && v.build <= 0x7FFF_FFFF
  }

  /** Lexicographic order on (major, minor, build): the order a range query
      over versions means. */
  predicate Less(a: Version, b: Version) {
    || a.major < b.major
    || (a.major == b.major && a.minor < b.minor)
    || (a.major == b.major && a.minor == b.minor && a.build < b.build)
  }

  /** `GetNumericalValue`: each component right-aligned in a group of three
      decimal digits, major first, so 7.5.0 becomes 007005000. For an
      in-range version the value fits nine digits and every component can be
      read back from its own group. */
  function NumericalValue(v: Version): (n: nat)
    ensures InRange(v) ==> n < 1_000_000_000
    ensures InRange(v) ==> n / 1_000_000 == v.major
    ensures InRange(v) ==> (n / 1000) % 1000 == v.minor
    ensures InRange(v) ==> n % 1000 == v.build
  {
    var n := v.major * 1_000_000 + v.minor * 1000 + v.build;
    if InRange(v) then
      DivMod(n, 1000, v.major * 1000 + v.minor, v.build);
      DivMod(v.major * 1000 + v.minor, 1000, v.major, v.minor);
      DivMod(n, 1_000_000, v.major, v.minor * 1000 + v.build);
      n
    else
      n
  }

  /** The quotient and remainder of a division by a positive constant are
      the unique pair that rebuilds the dividend. */
  lemma DivMod(n: int, d: int, q: int, r: int)
    requires d == 1000 || d == 1_000_000
    requires 0 <= r < d && n == q * d + r
    ensures n / d == q && n % d == r
  {
    if d == 1000 {
      assert n == q * 1000 + r;
    } else {
      assert n == q * 1_000_000 + r;
    }
  }

  /** Reads the three digit groups of an encoded version. */
  function Decode(n: nat): (v: Version)
    requires n < 1_000_000_000
    ensures InRange(v)
  {
    Version(n / 1_000_000, (n / 1000) % 1000, n % 1000)
  }

  lemma DecodeEncode(v: Version)
    requires InRange(v)
    ensures Decode(NumericalValue(v)) == v
  {
  }

  lemma {:induction false} EncodeDecode(n: nat)
    requires n < 1_000_000_000
    ensures NumericalValue(Decode(n)) == n
  {
    var v := Decode(n);
    assert n == (n / 1000) * 1000 + n % 1000;
    assert n / 1000 == (n / 1000 / 1000) * 1000 + (n / 1000) % 1000;
    assert n / 1000 / 1000 == n / 1_000_000;
  }

  /** Distinct in-range versions never share a numeric value. */
  lemma EncodingInjective(a: Version, b: Version)
    requires InRange(a) && InRange(b)
    requires NumericalValue(a) == NumericalValue(b)
    ensures a == b
  {
    DecodeEncode(a);
    DecodeEncode(b);
  }

  /** On in-range versions the numeric value orders exactly as the versions
      do, which is what makes range queries on it meaningful. */
  lemma {:induction false} EncodingOrderPreserving(a: Version, b: Version)
    requires InRange(a) && InRange(b)
    ensures Less(a, b) <==> NumericalValue(a) < NumericalValue(b)
  {
    var na, nb := NumericalValue(a), NumericalValue(b);
    if a.major != b.major {
      assert na / 1_000_000 == a.major && nb / 1_000_000 == b.major;
      if a.major < b.major {
        assert na < (a.major + 1) * 1_000_000 <= nb;
      } else {
        assert nb < (b.major + 1) * 1_000_000 <= na;
      }
    } else if a.minor != b.minor {
      if a.minor < b.minor {
        assert na < a.major * 1_000_000 + (a.minor + 1) * 1000 <= nb;
      } else {
        assert nb < b.major * 1_000_000 + (b.minor + 1) * 1000 <= na;
      }
    }
  }

  /** Examples: 7.5.0 and 4.11.0, as in the remarks of
      `AddNumericalVersionValue`, and 0.0.1. */
  lemma EncodingExamples()
    ensures NumericalValue(Version(7, 5, 0)) == 7005000
    ensures NumericalValue(Version(4, 11, 0)) == 4011000
    ensures NumericalValue(Version(0, 0, 1)) == 1
  {
  }

  /** Outside the three-digit range the groups overlap: 0.1000.0 and 1.0.0
      encode alike, so the encoding's guarantees need `InRange`. */
  lemma OutOfRangeCollides()
    ensures NumericalValue(Version(0, 1000, 0)) == NumericalValue(Version(1, 0, 0))
    ensures !InRange(Version(0, 1000, 0))
  {
  }

  /** The strict `major.minor.build` reading: exactly three non-empty groups
      of decimal digits separated by dots. */
  function ParseVersion3(s: string): (r: Option<Version>)
  {
    var parts := Split(s, '.');
    if |parts| == 3 && parts[0] != "" && parts[1] != "" && parts[2] != ""
      && IsDigits(parts[0]) && IsDigits(parts[1]) && IsDigits(parts[2])
    then Some(Version(ParseNat(parts[0]), ParseNat(parts[1]), ParseNat(parts[2])))
    else None
  }

  /** `Version.ToString(3)`: the three components in decimal, dot-separated.
      The strict reading gives the version back, and the text never holds a
      comma, so it survives the comma-joined `minimumVersionStrict` field. */
  function ToString3(v: Version): (r: string)
    ensures ParseVersion3(r) == Some(v)
    ensures r != [] && ',' !in r
    ensures var parts := Split(r, '.');
      |parts| == 3 && forall i :: 0 <= i < 3 ==> NoLeadingZero(parts[i])
  {
    var a, b, c := NatToString(v.major), NatToString(v.minor), NatToString(v.build);
    DottedParts(a, b, c);
    a + "." + b + "." + c
  }

  /** Three digit groups joined by dots split back into those groups, and
      the text holds no comma. */
  lemma DottedParts(a: string, b: string, c: string)
    requires IsDigits(a) && IsDigits(b) && IsDigits(c)
    ensures Split(a + "." + b + "." + c, '.') == [a, b, c]
    ensures ',' !in a + "." + b + "." + c
  {
    var r := a + "." + b + "." + c;
    assert Join([a, b, c], '.') == r by {
      assert [b, c][1..] == [c];
      assert Join([b, c], '.') == b + "." + c;
      assert [a, b, c][1..] == [b, c];
    }
    SplitJoin([a, b, c], '.');
    assert forall i :: 0 <= i < |r| ==> IsDigit(r[i]) || r[i] == '.';
  }

  lemma ToString3Injective(a: Version, b: Version)
    requires ToString3(a) == ToString3(b)
    ensures a == b
  {
  }
}

=== FILE: wrappers.dfy ===
/** The two wrapper datatypes of the model: `Option` stands for a .NET
    reference that may be null, `Result` for a call that either returns a
    value or throws. */
module Wrappers {

  datatype Option<+T> = None | Some(value: T) {

    /** The wrapped value, or `default` when there is none. */
    function GetOr(default: T): T {
      match this
      case Some(v) => v
      case None => default
    }
  }

  datatype Result<+R, +E> = Success(value: R) | Failure(error: E)
}
